=== FILE: README.md ===
# Prosperity trading bots: a Dafny model

This project models the per-tick decision logic of the trading bots in an
IMC Prosperity repository, together with the data types they consume and
the loader that turns rows of a prices CSV into a `TradingState`. A bot's
`Trader.run` receives the order books, positions, own trades, timestamp and
a `traderData` string carried over from the previous tick. It returns the
orders per product, a conversion count and the new `traderData`. Here every
`run` is a pure function from a `TradingState` to a `Result` of a
`TickOutput`, or to the Python exception the code would raise.

Modules, one file each:

- `Wrappers` (`wrappers.dfy`): `Option` and `Result`.
- `Numbers` (`numbers.dfy`): min/max, Python's `&` on non-negative integers (`BitAnd`, with `Pow2` and `BitAndAllOnes`), numpy's round-half-even and Python's `int(x / 2)`.
- `DataModel` (`datamodel.dfy`): `Listing`, `Order`, `OrderDepth`, `Trade`, `TradingState`, the `data` dictionary (`Memory`) and the `traderData` string (`TraderData`).
- `TopOfBook` (`topofbook.dfy`): best ask, best bid and the mid price.
- `History` (`history.dfy`): the two bounded-list idioms and their sliding-window meaning.
- `Resin` (`resin.dfy`): the RAINFOREST_RESIN market-making rule in its one-order form (example-program.py) and two-order form (Round2.py).
- `ExampleProgram` (`example_program.dfy`): `Trader.run` of example-program.py.
- `SquidInkIris` (`squid_ink_iris.dfy`): the SQUID_INK period strategy.
- `Round2` (`round2.dfy`): SQUID_INK around a rolling mean, RAINFOREST_RESIN, and the basket spread trades.
- `Loader` (`loader.dfy`): `LoadTradingState`.

Modelling choices:

- The resin guards `mid_price < 10000 & position <= 0` and `mid_price > 10000 & position >= 0` are modelled as Python evaluates them. `&` binds tighter than the comparisons, so they are chained comparisons against `10000 & position`. That value is a bitwise AND of 10000 with the low 14 bits of the position, written out over integers, and it is always between 0 and 10000. As a result, the buy branch needs a negative mid price, and the sell branch fires whenever the mid price exceeds `10000 & position`. A flat trader sells at every positive mid price.
- Mid prices are compared as doubled integers (`best_ask + best_bid`). `Mid` is the exact rational half.
- `Order.price` and `Order.quantity` are `real`, because Round2 places float prices and volumes on SQUID_INK.
- The `data` dictionary is a typed record, and `jsonpickle` is abstract. `traderData` is empty, the literal "SAMPLE", or the pickle of a `data` dictionary. squid_ink_iris.py treats "SAMPLE" as empty. Round2.py hands "SAMPLE" to the JSON decoder, which raises; that is modelled as `DecodeError`.
- The statistics are inputs:
  - the regression slope of `generate_correlation` (`slope`);
  - `np.mean` of the SQUID_INK history (`mean`);
  - the z-score formula on the last 3000 spreads (`zStat`).
- `TradingState.products` is the iteration order of `order_depths`. Round2's result does not depend on that order: `Round2.RunProductsFiles` states the filed orders as a map built independently of it.
- squid_ink_iris.py and Round2.py read `best_ask` and `best_bid` for every product in the loop. The model requires every book to be quoted on both sides. example-program.py reads them only for RAINFOREST_RESIN, and an empty side there is modelled as the `NameError` it raises.

## Model

| member | source | states |
|---|---|---|
| TopOfBook.BestAsk | example-program.py:29-33 | the best ask is a sell price of the book and no sell price is lower |
| TopOfBook.BestBid | example-program.py:35-39 | the best bid is a buy price of the book and no buy price is higher |
| TopOfBook.Mid | example-program.py:41 | twice the mid price is best ask plus best bid, and the mid lies between bid and ask when they are not crossed |
| Numbers.RoundHalfEven | Round2.py:51 | the result is within half a unit of n/d, and an exact tie rounds to the even neighbour |
| Numbers.TruncHalf | squid_ink_iris.py:175 | `int(n / 2)` rounds toward zero: for n >= 0 it is the largest r with 2r <= n, for n < 0 the smallest r with 2r >= n |
| History.DropThenAppend | squid_ink_iris.py:196-202 | the new value is last, the rest is a suffix of the old list, a list of at most limit+1 stays so, and a short list only grows |
| History.AppendThenDrop | Round2.py:115-120 | the new value is last, the rest is a suffix of the old list, and the length never exceeds the cap |
| History.DropThenAppendIsWindow | Round2.py:44-68 | under its length bound the drop-then-append update keeps the last limit+1 values |
| History.AppendThenDropIsWindow | Round2.py:115-120 | under its length bound the append-then-drop update keeps the last cap values |
| History.SlideIsWindow | squid_ink_iris.py:196-202 | any number of drop-then-append updates leave the window of the most recent limit+1 values |
| History.AppendThenDropRepeat | Round2.py:115-120 | appending the same value k+1 times keeps the window of the history followed by k+1 copies |
| Numbers.BitAnd | example-program.py:45 | Python's `&` on non-negative integers, bit by bit; the result is no larger than either operand |
| Numbers.BitAndAllOnes | example-program.py:45 | a mask of k one-bits keeps any number below 2^k unchanged, which is why a position with all 14 low bits set gives 10000 |
| Resin.AndFair | example-program.py:45 | `10000 & position` is between 0 and 10000, is 0 when the low 14 bits are clear and 10000 when they are all set |
| Resin.BuyGuard | example-program.py:45 | the buy guard holds exactly when `10000 & position` is 0 and the mid price is negative |
| Resin.SellGuard | example-program.py:50 | the sell guard holds exactly when the mid price exceeds `10000 & position` |
| Resin.BidPrice | example-program.py:46 | the buy price never exceeds 10000 or best bid + 1, and equals one of them |
| Resin.AskPrice | example-program.py:51 | the sell price is never below 10000 or best ask - 1, and equals one of them |
| Resin.Edge | example-program.py:47 | the edge is at least 5 and at least the distance, and equals one of them |
| Resin.SingleOrderRule | example-program.py:45-55 | at most one resin order, present exactly when a guard holds; a buy at the bid price takes the position to ten times the edge (at least 50 from a non-positive position), a sell at the ask price to minus ten times the edge |
| Resin.TwoOrderRule | Round2.py:77-93 | zero or two resin orders, exactly when a guard holds; a buy places both at the bid price, the second for five times the edge and the first for that less the position; a sell places them at the ask price and one tick above, with negated volumes |
| Resin.NoBuyAtNonNegativeMid | Round2.py:77-92 | with a non-negative mid price neither rule ever buys: every order is priced at 10000 or above |
| Resin.FlatPositionAlwaysSells | example-program.py:45-54 | with position 0 any positive mid price triggers a sell of at least 50, and with position -1 the sell fires exactly above 10000 |
| ExampleProgram.Run | example-program.py:16-107 | raises NameError exactly when a resin book side is empty; otherwise returns "SAMPLE" and 1 conversion, files orders only for RAINFOREST_RESIN, at most one, by the single-order rule |
| ExampleProgram.OnlyResinMatters | example-program.py:16-18 | two states that agree on the resin book and resin position give the same tick output |
| SquidInkIris.Phase | squid_ink_iris.py:83-95 | the phase is in [0, 3300) and congruent to the timestamp |
| SquidInkIris.GenerateCorrelation | squid_ink_iris.py:15-18 | the gradient is 0.0 while the history is shorter than rolling period plus evaluation length |
| SquidInkIris.TrendScore | squid_ink_iris.py:105-107 | the score times the presumed maximum gradient is the gradient, so the 0.3 thresholds are thresholds on the gradient |
| SquidInkIris.EntryOrders | squid_ink_iris.py:109-135 | at most one order; a buy at best ask + 1 exactly when the score is at least 0.3 and the position at most 40, of 8 exactly when the score is at least 0.6 and the position at most 25, else 2; a sell of 8 at best bid + 1 exactly when the score is at most -0.3 and the position at least -40; no order at all otherwise |
| SquidInkIris.RecordTrade | squid_ink_iris.py:137-147 | a missing product key records nothing, an empty trade list raises IndexError, otherwise the last own trade is recorded with its quantity remaining |
| SquidInkIris.UnwindOrders | squid_ink_iris.py:150-192 | one order exactly when a recorded quantity q is non-zero; for q > 0 a sell at the best ask of all of q exactly when the mid is at least the trade price, else of `int(q / 2)`; for q < 0 the mirror buy at the best bid, of `int(-q / 2)` when the mid is above the trade price |
| SquidInkIris.RecordIfDue | squid_ink_iris.py:137-147 | raises exactly in the record phase with a long enough history when recording raises, never touches the histories, and in that phase stores the recorded trade (the last own SQUID_INK trade, or `{}` when the key is missing); otherwise leaves `data` as it was |
| SquidInkIris.SquidTick | squid_ink_iris.py:77-202 | entry is evaluated exactly with more than 33 prices at phase 800 and is the entry ladder on the trend score of the history; the recorded trade is stored at phase 900 and kept otherwise; at phase 0 the unwind orders are those for the stored trade; the history gets the drop-then-append update; every other history is kept as it was; the tick raises exactly when recording raises |
| SquidInkIris.DecodeMemory | squid_ink_iris.py:53 | a pickled dictionary is used as is; empty and "SAMPLE" both start from the empty dictionary |
| SquidInkIris.Run | squid_ink_iris.py:44-215 | returns 1 conversion and a pickled dictionary, files only SQUID_INK, exactly in the entry phase with more than 33 prices, and what it files there is the entry ladder on the trend score of the history and the SQUID_INK position; the re-pickled dictionary keeps every other history unchanged; it stores the recorded trade in the record phase with enough history and otherwise hands the stored trade on unchanged; the only error is IndexError at phase 900 |
| SquidInkIris.UnwindOrdersAreDropped | squid_ink_iris.py:135-192 | at phase 0 the result is empty although an unwind order is built for any non-zero recorded quantity |
| SquidInkIris.RecordPhaseError | squid_ink_iris.py:137-147 | in the record phase with enough history the tick raises exactly when the own SQUID_INK trade list is present and empty |
| SquidInkIris.RecordThenUnwind | squid_ink_iris.py:137-192 | the tick after a recording tick, at phase 0 and handed its traderData, builds the unwind order for the whole quantity of the last own SQUID_INK trade, and none when the key was missing |
| SquidInkIris.TicksKeepTrade | squid_ink_iris.py:135-192 | any run of ticks none of which is in the record phase hands the stored trade on unchanged |
| SquidInkIris.RecordThenUnwindAcross | squid_ink_iris.py:83-192 | with any ticks outside the record phase between them (the 23 ticks from phase 1000 to 3200 at the usual 100-step timestamps), the phase-0 tick after a recording tick builds the unwind order for the whole quantity of the recording tick's last own SQUID_INK trade, and none when the key was missing |
| SquidInkIris.TickUpdatesHistory | squid_ink_iris.py:196-202 | a tick hands on the history updated with its mid price and every other history unchanged |
| SquidInkIris.HistoryIsWindowOfMids | squid_ink_iris.py:196-202 | across successive ticks the history handed on is the window of the most recent 67 mid prices |
| SquidInkIris.HistoryFromStartIsWindowOfMids | squid_ink_iris.py:53-202 | from the first tick of a run, handed empty traderData or "SAMPLE", the history handed on is the window of the most recent 67 mid prices of the run |
| Round2.Skew | Round2.py:51 | position + 10 * skew is within 5 of 0, an exact tie taking the even skew |
| Round2.SquidOrder | Round2.py:49-64 | when mid <= price, a buy at no more than price and best bid + 1 taking the position to 5 times the edge (at least 25); otherwise a sell at no less than price and best ask - 1 taking it to minus 5 times the edge |
| Round2.SquidOrders | Round2.py:45-65 | SQUID_INK is filed exactly when more than 10 prices are remembered, with the single order on their mean; other products are untouched |
| Round2.SquidStep | Round2.py:43-68 | the SQUID_INK history gets the drop-then-append update with the mid price and every other entry of the dictionary is untouched |
| Round2.ExtendHistory | Round2.py:115-120 | the named history gets the append-then-drop update and every other entry is untouched |
| Round2.SyntheticA | Round2.py:105 | the replica of PICNIC_BASKET1 weighs DJEMBES, JAMS and CROISSANTS 1, 3 and 6 (why: see Round2.LegOrdersTradeSpreadA) |
| Round2.SyntheticB | Round2.py:106 | the replica of PICNIC_BASKET2 is the replica of PICNIC_BASKET1 less one DJEMBES, one JAMS and two CROISSANTS |
| Round2.SpreadA | Round2.py:109 | basket 1's mid is its replica plus spread_A, so spread_A is positive exactly when basket 1 trades above its replica |
| Round2.SpreadB | Round2.py:110 | basket 2's mid is its replica plus spread_B, so spread_B is positive exactly when basket 2 trades above its replica |
| Round2.SpreadDjembe | Round2.py:111-113 | spread_djembe is spread_A less one and a half spread_B, the identity the source notes in a comment |
| Round2.ZScore | Round2.py:122-129 | 0 while the series is shorter than 3000; otherwise the statistic of the window of its last 3000 values |
| Round2.LegOrdersTradeSpreadA | Round2.py:141-154 | marked to mids, the four basket-1 legs are worth exactly the basket quantity times spread_A: the hedge leaves only the spread exposed |
| Round2.LegOrders | Round2.py:141-154 | four legs exactly when the z-score is beyond ±1.2; the basket trades 5 against the score and each component the opposite way in its replica weight; every leg crosses the spread |
| Round2.PairOrders | Round2.py:156-162 | one DJEMBES order exactly when the pair z-score is beyond ±1.2, selling 5 above and buying 5 below, crossing the spread |
| Round2.BasketStep | Round2.py:96-164 | with every basket quoted it extends the spread histories and raises AttributeError exactly when any leg or pair order is built; otherwise it changes nothing |
| Round2.DecodeMemory | Round2.py:18 | only "SAMPLE" fails to decode; empty gives the empty dictionary |
| Round2.Run | Round2.py:9-180 | "SAMPLE" raises; a completed tick returns 1 conversion and a pickled dictionary that differs from the decoded one only in SQUID_INK, "spread_A", "spread_B" and "spread_djembe": no entry is removed, no other is added or changed, and the stored trade is kept |
| Round2.Step | Round2.py:22-164 | one pass of the loop body raises only AttributeError and only for a basket product, and otherwise changes `data` only in the four histories a tick writes |
| Round2.RunProducts | Round2.py:21-164 | the loop over the products, stopping at the first exception, raises only AttributeError and otherwise changes `data` only in the four histories a tick writes |
| Round2.StepEffect | Round2.py:21-164 | one pass files the reference orders for its product and updates the SQUID_INK history only on SQUID_INK; only basket passes can raise |
| Round2.RunProductsFiles | Round2.py:21-93 | the loop files the reference orders, whatever the order of the products |
| Round2.RunProductsSquidHistory | Round2.py:43-68 | the loop updates the SQUID_INK history once when SQUID_INK is listed |
| Round2.RunProductsSpreads | Round2.py:96-120 | each spread history ends as the window of the last 3000 of the old history plus one copy of the spread per basket pass |
| Round2.RunProductsRaises | Round2.py:122-164 | the loop raises only AttributeError, only with every basket quoted, and only once a spread history plus the basket passes reach 3000 |
| Round2.CountAllBaskets | Round2.py:96-99 | with every basket product present the basket block runs five times |
| Round2.BasketStepRaises | Round2.py:122-164 | a basket pass raises only once "spread_A" or "spread_djembe" holds 3000 values after the append |
| Round2.RunFiles | Round2.py:21-93 | a completed tick files exactly the reference orders, only RAINFOREST_RESIN and SQUID_INK, and the SQUID_INK history gets one drop-then-append update, so it ends in the mid price and a history of at most 11 stays so |
| Round2.RunSpreads | Round2.py:96-120 | with every basket quoted each spread history gains five copies of the tick's spread, capped at 3000; otherwise it is unchanged |
| Round2.RunRaises | Round2.py:122-164 | a tick raises only DecodeError on "SAMPLE", or AttributeError once a spread history is within 5 of 3000 |
| Loader.Side | datamodel.py:223-228 | the side has a key for exactly the quoted prices |
| Loader.SideKeepsLastLevel | datamodel.py:223-228 | each price carries the signed volume of the last level quoting it |
| Loader.BookOf | datamodel.py:222-228 | the book's bid and ask keys are exactly the row's bid and ask prices |
| Loader.BookLevels | datamodel.py:223-228 | bid volumes land as given and ask volumes negated, the later of two equal price levels winning |
| Loader.LoadAllProductsByTimestamp | datamodel.py:202-248 | "SAMPLE" and the requested timestamp; exactly the products of the rows at that timestamp, listed once each; listing (p, p, p), position 0 and no trades for each; each book from the product's last row at that timestamp |
| Loader.ILoc | datamodel.py:152 | `iloc` accepts indices from -len to len-1, negative ones counting from the end, and raises IndexError otherwise |
| Loader.LoadSingleProduct | datamodel.py:146-200 | raises exactly when iloc does; otherwise "SAMPLE", timestamp 0 and the one product of the row with its book, position 0 and no trades |
| Loader.SingleIsFilteredLoad | datamodel.py:146-248 | loading one row is loading the frame of that row at its timestamp, with the timestamp reset to 0 |

## Left out

- The statistics (`np.convolve`, `np.corrcoef`, `statistics.linear_regression`, `np.mean`, `np.std`): floating-point numerics. They are inputs: `slope`, `mean` and `zStat`.
- `jsonpickle` encoding and decoding: opaque serialisation. `data` is passed in and returned as a record. Any other `traderData` string is not modelled.
- Floating-point rounding: mid prices, scores and volumes are exact rationals.
- `print` logging, `__str__`/`__repr__`, `toJSON` and `ProsperityEncoder`: presentation only.
- `Observation` and `ConversionObservation`, and the `mid_price` column that feeds them: they carry no logic the bots use. The `profit_and_loss` column is read into the single-product loader and never used.
- The `Order` and `Trade` constructors: they are the datatypes' own constructors and store their fields unchanged.
- Stale or unbound `best_bid`/`best_ask` when a book side is empty in squid_ink_iris.py and Round2.py: a Python scoping artefact. Both sides of every book are required instead.
- pandas mechanics: a DataFrame is a sequence of rows. Missing (NaN) price levels are not modelled.
- Loader.LoadAllProductsByTimestamp: lists each product once but does not state the order of the list, which in the source is first appearance among the kept rows.
- round2plots.py: a plotting script.
- backtester_run.py: file I/O that drives a backtester and a trader that are not part of this model.

=== FILE: datamodel.dfy ===
/** The records of the exchange data model (datamodel.py) and the state the
    traders carry from one tick to the next. Python objects with mutable
    attributes become immutable datatypes; dictionaries become maps. */
module DataModel {
  import opened Wrappers

  type Symbol = string

  const RAINFOREST_RESIN: Symbol := "RAINFOREST_RESIN"
  const SQUID_INK: Symbol := "SQUID_INK"
  const DJEMBES: Symbol := "DJEMBES"
  const JAMS: Symbol := "JAMS"
  const CROISSANTS: Symbol := "CROISSANTS"
  const PICNIC_BASKET1: Symbol := "PICNIC_BASKET1"
  const PICNIC_BASKET2: Symbol := "PICNIC_BASKET2"

  datatype Listing = Listing(symbol: Symbol, product: Symbol, denomination: Symbol)

  /** An order to send to the exchange. A positive quantity buys, a negative
      one sells. The type hints say int, but the Round 2 SQUID_INK rule puts
      floats into both fields, so they are reals here; integer prices and
      quantities are embedded with `as real`. */
  datatype Order = Order(symbol: Symbol, price: real, quantity: real)

  /** Price level to volume. Buy volumes are positive and sell volumes are
      negative, as the exchange reports them. */
  datatype OrderDepth = OrderDepth(buyOrders: map<int, int>, sellOrders: map<int, int>)

  datatype Trade = Trade(
    symbol: Symbol,
    price: int,
    quantity: int,
    buyer: Option<string>,
    seller: Option<string>,
    timestamp: int)

  /** What a trader remembers about the trade it wants to unwind: the dict
      `{}` (nothing to unwind) or `{"trade": t, "remaining_quantity": q}`. */
  datatype DemolishRecord = NoTrade | Pending(trade: Trade, remainingQuantity: int)

  /** The `data` dictionary a trader keeps between ticks: rolling price
      histories under string keys ("SQUID_INK", "spread_A", ...) and the
      optional "SQUID_INK_TRADE_TO_DEMOLISH" entry (None when the key is
      absent). */
  datatype Memory = Memory(histories: map<string, seq<real>>, tradeToDemolish: Option<DemolishRecord>)

  const EmptyMemory := Memory(map[], None)

  /** The `traderData` string: empty, the literal "SAMPLE" written by the
      loader and by the first example trader, or the jsonpickle encoding of
      a `data` dictionary. The encoding itself is not modelled. */
  datatype TraderData = Blank | Sample | Pickled(memory: Memory)

  /** A trading state. Python dictionaries iterate in insertion order, and the
      traders' loops depend on it, so `products` records the order in which
      the keys of `orderDepths` were inserted. The observations carry only
      floats that no trader reads and are not modelled. */
  datatype TradingState = TradingState(
    traderData: TraderData,
    timestamp: int,
    listings: map<Symbol, Listing>,
    orderDepths: map<Symbol, OrderDepth>,
    products: seq<Symbol>,
    ownTrades: map<Symbol, seq<Trade>>,
    marketTrades: map<Symbol, seq<Trade>>,
    position: map<Symbol, int>)

  /** The triple `(result, conversions, traderData)` that `Trader.run` returns. */
  datatype TickOutput = TickOutput(orders: map<Symbol, seq<Order>>, conversions: int, traderData: TraderData)

  /** The Python exceptions the modelled code can raise and does not catch. */
  datatype Error = NameError | IndexError | AttributeError | DecodeError

  /** No symbol is listed twice. */
  predicate Distinct(products: seq<Symbol>) {
    forall i, j :: 0 <= i < j < |products| ==> products[i] != products[j]
  }

  /** `products` lists the keys of `orderDepths` once each, in some order. */
  predicate ListsKeysOnce(products: seq<Symbol>, keys: set<Symbol>) {
    && Distinct(products)
    && (forall p :: p in products ==> p in keys)
    && (forall p :: p in keys ==> p in products)
  }

  /** `state.position.get(product, 0)` */
  function PositionOf(state: TradingState, product: Symbol): int {
    if product in state.position then state.position[product] else 0
  }

  /** `data.get(key, [])` for a history key. */
  function HistoryOf(memory: Memory, key: string): seq<real> {
    if key in memory.histories then memory.histories[key] else []
  }
}

=== FILE: example_program.dfy ===
/** `Trader.run` of example-program.py: only RAINFOREST_RESIN is traded, with
    the single-order rule; every other product is skipped. The trader keeps
    no memory: it always hands back the literal "SAMPLE" and one conversion. */
module ExampleProgram {
  import opened Wrappers
  import opened DataModel
  import opened TopOfBook
  import opened Resin

  /** One tick. Only the RAINFOREST_RESIN branch reads a book, so a resin
      book with an empty side leaves `best_ask` or `best_bid` unbound and the
      mid-price line raises NameError. */
  function Run(state: TradingState): (out: Result<TickOutput, Error>)
    ensures out.Err? <==> RAINFOREST_RESIN in state.orderDepths && !TwoSided(state.orderDepths[RAINFOREST_RESIN])
    ensures out.Err? ==> out.error == NameError
    ensures out.Ok? ==> out.value.traderData == Sample && out.value.conversions == 1
    ensures out.Ok? ==> out.value.orders.Keys == state.orderDepths.Keys * {RAINFOREST_RESIN}
    ensures out.Ok? ==> forall p :: p in out.value.orders ==> |out.value.orders[p]| <= 1
    ensures out.Ok? && RAINFOREST_RESIN in out.value.orders ==>
      out.value.orders[RAINFOREST_RESIN] == SingleOrderRule(state.orderDepths[RAINFOREST_RESIN], PositionOf(state, RAINFOREST_RESIN))
  {
    if RAINFOREST_RESIN in state.orderDepths then
      var book := state.orderDepths[RAINFOREST_RESIN];
      if !TwoSided(book) then
        Err(NameError)
      else
        var orders := SingleOrderRule(book, PositionOf(state, RAINFOREST_RESIN));
        Ok(TickOutput(map[RAINFOREST_RESIN := orders], 1, Sample))
    else
      Ok(TickOutput(map[], 1, Sample))
  }

  /** Nothing but the resin book and the resin position influences a tick:
      the books, positions and trades of every other product, the incoming
      traderData and the timestamp are all ignored. */
  lemma OnlyResinMatters(s1: TradingState, s2: TradingState)
    requires RAINFOREST_RESIN in s1.orderDepths <==> RAINFOREST_RESIN in s2.orderDepths
    requires RAINFOREST_RESIN in s1.orderDepths ==> s1.orderDepths[RAINFOREST_RESIN] == s2.orderDepths[RAINFOREST_RESIN]
    requires PositionOf(s1, RAINFOREST_RESIN) == PositionOf(s2, RAINFOREST_RESIN)
    ensures Run(s1) == Run(s2)
  {
  }
}

=== FILE: history.dfy ===
/** The bounded rolling histories the traders keep in their `data`
    dictionary. Two list idioms appear in the source: drop the head when the
    list is already too long and then append (the SQUID_INK price
    histories), and append and then drop the head when the list has become
    too long (the basket spread histories). Under their length invariant
    both keep a sliding window of the most recent values. */
module History {

  /** The most recent n elements of s (all of s when it is shorter). */
  function Window<T>(s: seq<T>, n: nat): (w: seq<T>)
    ensures |w| == if |s| <= n then |s| else n
    ensures w == s[|s| - |w|..]
  {
    if |s| <= n then s else s[|s| - n..]
  }

  /** `if len(h) > limit: h.pop(0)` followed by `h.append(x)`. */
  function DropThenAppend<T>(h: seq<T>, x: T, limit: nat): (r: seq<T>)
    ensures 0 < |r| <= |h| + 1 && r[|r| - 1] == x
    ensures r == (h + [x])[|h| + 1 - |r|..]
    ensures |h| <= limit + 1 ==> |r| <= limit + 1
    ensures |h| <= limit ==> |r| == |h| + 1
  {
    if |h| > limit then h[1..] + [x] else h + [x]
  }

  /** `h.append(x)` followed by `if len(h) > cap: h.pop(0)`. */
  function AppendThenDrop<T>(h: seq<T>, x: T, cap: nat): (r: seq<T>)
    requires cap > 0
    ensures 0 < |r| <= |h| + 1 && r[|r| - 1] == x
    ensures r == (h + [x])[|h| + 1 - |r|..]
    ensures |h| <= cap ==> |r| <= cap
    ensures |h| < cap ==> |r| == |h| + 1
  {
    var extended := h + [x];
    if |extended| > cap then extended[1..] else extended
  }

  /** A suffix of v that is at least as long as v's window has that window. */
  lemma WindowOfLongSuffix<T>(u: seq<T>, v: seq<T>, n: nat)
    requires |u| <= |v| && u == v[|v| - |u|..]
    requires |u| >= n || |u| == |v|
    ensures Window(u, n) == Window(v, n)
  {
    if |u| == |v| {
      assert u == v;
    } else {
      assert Window(u, n) == u[|u| - n..];
      assert u[|u| - n..] == v[|v| - n..];
    }
  }

  /** Taking a window early does not change a later window of the same size. */
  lemma WindowThenExtend<T>(s: seq<T>, t: seq<T>, n: nat)
    ensures Window(Window(s, n) + t, n) == Window(s + t, n)
  {
    var w := Window(s, n);
    assert w + t == (s + t)[|s| - |w|..];
    WindowOfLongSuffix(w + t, s + t, n);
  }

  /** Under its length invariant the drop-then-append update keeps the
      window of the most recent limit + 1 values. */
  lemma DropThenAppendIsWindow<T>(h: seq<T>, x: T, limit: nat)
    requires |h| <= limit + 1
    ensures DropThenAppend(h, x, limit) == Window(h + [x], limit + 1)
  {
  }

  /** Under its length invariant the append-then-drop update keeps the
      window of the most recent cap values. */
  lemma AppendThenDropIsWindow<T>(h: seq<T>, x: T, cap: nat)
    requires cap > 0 && |h| <= cap
    ensures AppendThenDrop(h, x, cap) == Window(h + [x], cap)
  {
  }

  /** One drop-then-append update followed by a window over later values
      is the window over all of them. */
  lemma SlideStep<T>(h: seq<T>, x: T, rest: seq<T>, limit: nat)
    requires |h| <= limit + 1
    ensures Window(DropThenAppend(h, x, limit) + rest, limit + 1) == Window(h + ([x] + rest), limit + 1)
  {
    DropThenAppendIsWindow(h, x, limit);
    WindowThenExtend(h + [x], rest, limit + 1);
    assert (h + [x]) + rest == h + ([x] + rest);
  }

  /** The history after one drop-then-append update per tick, for the
      values xs observed on successive ticks. */
  function Slide<T>(h: seq<T>, xs: seq<T>, limit: nat): seq<T>
    decreases |xs|
  {
    if xs == [] then h else Slide(DropThenAppend(h, xs[0], limit), xs[1..], limit)
  }

  /** Over any run of ticks the history is the window of the most recent
      limit + 1 observed values. */
  lemma {:induction false} SlideIsWindow<T>(h: seq<T>, xs: seq<T>, limit: nat)
    requires |h| <= limit + 1
    ensures Slide(h, xs, limit) == Window(h + xs, limit + 1)
    decreases |xs|
  {
    if xs == [] {
      assert h + xs == h;
    } else {
      var h' := DropThenAppend(h, xs[0], limit);
      calc {
        Slide(h, xs, limit);
        Slide(h', xs[1..], limit);
        { SlideIsWindow(h', xs[1..], limit); }
        Window(h' + xs[1..], limit + 1);
        { SlideStep(h, xs[0], xs[1..], limit); assert [xs[0]] + xs[1..] == xs; }
        Window(h + xs, limit + 1);
      }
    }
  }

  /** k copies of x. */
  function Repeat<T>(x: T, k: nat): (r: seq<T>)
    ensures |r| == k
    ensures forall i :: 0 <= i < k ==> r[i] == x
  {
    seq(k, _ => x)
  }

  /** An append-then-drop update with x followed by a window over k more
      copies of x is the window over k + 1 copies. */
  lemma AppendThenDropRepeat<T>(h: seq<T>, x: T, k: nat, cap: nat)
    requires cap > 0 && |h| <= cap
    ensures Window(AppendThenDrop(h, x, cap) + Repeat(x, k), cap) == Window(h + Repeat(x, k + 1), cap)
  {
    AppendThenDropIsWindow(h, x, cap);
    WindowThenExtend(h + [x], Repeat(x, k), cap);
    assert (h + [x]) + Repeat(x, k) == h + Repeat(x, k + 1);
  }
}

=== FILE: loader.dfy ===
/** `LoadTradingState` of datamodel.py: building a TradingState from the rows
    of a prices CSV (`day;timestamp;product;bid_price_1;bid_volume_1;...`).
    A DataFrame is a sequence of rows. The `mid_price` column feeds only the
    Observation object, which is not modelled; the `profit_and_loss` column
    is read by the single-product loader and never used. */
module Loader {
  import opened Wrappers
  import opened DataModel

  /** One price level of a row: `bid_price_i` with `bid_volume_i`, or
      `ask_price_i` with `ask_volume_i`. */
  datatype Level = Level(price: int, volume: int)

  /** One row of a prices CSV. The file has three levels per side; the
      loader treats any number of them the same way. */
  datatype PriceRow = PriceRow(timestamp: int, product: Symbol, bids: seq<Level>, asks: seq<Level>)

  /** Some level quotes price p. */
  predicate Quotes(levels: seq<Level>, p: int) {
    exists i :: 0 <= i < |levels| && levels[i].price == p
  }

  /** Level i is the last level quoting its price. */
  predicate LastAt(levels: seq<Level>, i: int)
    requires 0 <= i < |levels|
  {
    forall j :: i < j < |levels| ==> levels[j].price != levels[i].price
  }

  /** One side of the book, writing the levels in turn:
      `order_depth.buy_orders[price] = sign * volume`. A price quoted twice
      keeps the later level's volume. */
  function Side(levels: seq<Level>, sign: int): (side: map<int, int>)
    ensures forall p :: p in side <==> Quotes(levels, p)
    decreases |levels|
  {
    if levels == [] then map[]
    else
      var last := levels[|levels| - 1];
      var side := Side(levels[..|levels| - 1], sign);
      assert forall p :: Quotes(levels, p) <==> Quotes(levels[..|levels| - 1], p) || p == last.price by {
        forall p | Quotes(levels, p) && p != last.price ensures Quotes(levels[..|levels| - 1], p) {
          var i :| 0 <= i < |levels| && levels[i].price == p;
          assert levels[..|levels| - 1][i] == levels[i];
        }
        forall p | Quotes(levels[..|levels| - 1], p) ensures Quotes(levels, p) {
          var i :| 0 <= i < |levels| - 1 && levels[..|levels| - 1][i].price == p;
          assert levels[i].price == p;
        }
      }
      side[last.price := sign * last.volume]
  }

  /** Each quoted price carries the volume of the last level quoting it,
      times the sign. */
  lemma {:induction false} SideKeepsLastLevel(levels: seq<Level>, sign: int, i: int)
    requires 0 <= i < |levels| && LastAt(levels, i)
    ensures levels[i].price in Side(levels, sign)
    ensures Side(levels, sign)[levels[i].price] == sign * levels[i].volume
    decreases |levels|
  {
    var n := |levels|;
    if i < n - 1 {
      var init := levels[..n - 1];
      assert init[i] == levels[i];
      assert LastAt(init, i) by {
        forall j | i < j < |init| ensures init[j].price != init[i].price {
          assert init[j] == levels[j];
        }
      }
      SideKeepsLastLevel(init, sign, i);
    }
  }

  /** The book of one row: bids as given, ask volumes negated. */
  function BookOf(row: PriceRow): (book: OrderDepth)
    ensures forall p :: p in book.buyOrders <==> Quotes(row.bids, p)
    ensures forall p :: p in book.sellOrders <==> Quotes(row.asks, p)
  {
    OrderDepth(Side(row.bids, 1), Side(row.asks, -1))
  }

  /** Each price level of a row lands in the book with its volume, ask
      volumes negated, unless a later level of the same side repeats its
      price. */
  lemma BookLevels(row: PriceRow)
    ensures forall i :: 0 <= i < |row.bids| && LastAt(row.bids, i) ==>
      row.bids[i].price in BookOf(row).buyOrders && BookOf(row).buyOrders[row.bids[i].price] == row.bids[i].volume
    ensures forall i :: 0 <= i < |row.asks| && LastAt(row.asks, i) ==>
      row.asks[i].price in BookOf(row).sellOrders && BookOf(row).sellOrders[row.asks[i].price] == -row.asks[i].volume
  {
    forall i | 0 <= i < |row.bids| && LastAt(row.bids, i)
      ensures row.bids[i].price in BookOf(row).buyOrders && BookOf(row).buyOrders[row.bids[i].price] == row.bids[i].volume
    {
      SideKeepsLastLevel(row.bids, 1, i);
    }
    forall i | 0 <= i < |row.asks| && LastAt(row.asks, i)
      ensures row.asks[i].price in BookOf(row).sellOrders && BookOf(row).sellOrders[row.asks[i].price] == -row.asks[i].volume
    {
      SideKeepsLastLevel(row.asks, -1, i);
    }
  }

  /** The per-product entries of a loaded state: listing `(p, p, p)`, the
      book of the row, position 0 and no trades. */
  function AddRow(state: TradingState, row: PriceRow): TradingState {
    var p := row.product;
    state.(
      listings := state.listings[p := Listing(p, p, p)],
      orderDepths := state.orderDepths[p := BookOf(row)],
      products := if p in state.orderDepths then state.products else state.products + [p],
      ownTrades := state.ownTrades[p := []],
      marketTrades := state.marketTrades[p := []],
      position := state.position[p := 0])
  }

  /** Row i is kept by the filter `df["timestamp"] == timestamp`. */
  predicate Kept(rows: seq<PriceRow>, timestamp: int, i: int)
    requires 0 <= i < |rows|
  {
    rows[i].timestamp == timestamp
  }

  /** Row i is the last kept row for its product. */
  predicate LastKept(rows: seq<PriceRow>, timestamp: int, i: int)
    requires 0 <= i < |rows|
  {
    && Kept(rows, timestamp, i)
    && forall j :: i < j < |rows| && Kept(rows, timestamp, j) ==> rows[j].product != rows[i].product
  }

  /** Some kept row is for product p. */
  predicate Lists(rows: seq<PriceRow>, timestamp: int, p: Symbol) {
    exists i :: 0 <= i < |rows| && Kept(rows, timestamp, i) && rows[i].product == p
  }

  /** The entries every loaded product gets, whatever its row. */
  predicate FreshEntries(state: TradingState) {
    && state.listings.Keys == state.orderDepths.Keys
    && state.position.Keys == state.orderDepths.Keys
    && state.ownTrades.Keys == state.orderDepths.Keys
    && state.marketTrades.Keys == state.orderDepths.Keys
    && (forall p :: p in state.listings ==> state.listings[p] == Listing(p, p, p))
    && (forall p :: p in state.position ==> state.position[p] == 0)
    && (forall p :: p in state.ownTrades ==> state.ownTrades[p] == [])
    && (forall p :: p in state.marketTrades ==> state.marketTrades[p] == [])
  }

  /** What loading the rows at a timestamp yields: "SAMPLE" and the
      timestamp; a product for each product of a kept row, listed once; the
      fresh entries for each; and each product's book taken from its last
      kept row. */
  ghost predicate Loaded(rows: seq<PriceRow>, timestamp: int, state: TradingState) {
    && state.traderData == Sample && state.timestamp == timestamp
    && (forall p :: p in state.orderDepths <==> Lists(rows, timestamp, p))
    && ListsKeysOnce(state.products, state.orderDepths.Keys)
    && FreshEntries(state)
    && (forall i :: 0 <= i < |rows| && LastKept(rows, timestamp, i) ==>
          rows[i].product in state.orderDepths && state.orderDepths[rows[i].product] == BookOf(rows[i]))
  }

  /** `load_all_products_by_timestamp(df, timestamp)`: keep the rows at the
      timestamp and enter each one's product, a later row for the same
      product overwriting an earlier one. The state carries "SAMPLE" and the
      requested timestamp. */
  function LoadAllProductsByTimestamp(rows: seq<PriceRow>, timestamp: int): (state: TradingState)
    ensures Loaded(rows, timestamp, state)
    decreases |rows|
  {
    if rows == [] then
      TradingState(Sample, timestamp, map[], map[], [], map[], map[], map[])
    else
      var n := |rows|;
      var state := LoadAllProductsByTimestamp(rows[..n - 1], timestamp);
      LoadStep(rows, timestamp, state);
      Extend(rows, timestamp, state)
  }

  /** The state after the rows before the last one, extended by the last
      row when it is kept. */
  function Extend(rows: seq<PriceRow>, timestamp: int, state: TradingState): TradingState
    requires rows != []
  {
    var last := rows[|rows| - 1];
    if last.timestamp == timestamp then AddRow(state, last) else state
  }

  /** The inductive step of LoadAllProductsByTimestamp: what holds of the
      state loaded from all rows but the last carries over to all rows. */
  lemma LoadStep(rows: seq<PriceRow>, timestamp: int, state: TradingState)
    requires rows != []
    requires Loaded(rows[..|rows| - 1], timestamp, state)
    ensures Loaded(rows, timestamp, Extend(rows, timestamp, state))
  {
    LoadStepKeys(rows, timestamp, state);
    LoadStepLastKept(rows, timestamp, state);
    LoadStepProducts(rows, timestamp, state);
    LoadStepEntries(rows, timestamp, state);
  }

  /** The products in the state are those of the kept rows. */
  lemma LoadStepKeys(rows: seq<PriceRow>, timestamp: int, state: TradingState)
    requires rows != []
    requires forall p :: p in state.orderDepths <==> Lists(rows[..|rows| - 1], timestamp, p)
    ensures forall p :: p in Extend(rows, timestamp, state).orderDepths <==> Lists(rows, timestamp, p)
  {
    var n := |rows|;
    var init := rows[..n - 1];
    var last := rows[n - 1];
    var state' := Extend(rows, timestamp, state);
    forall p ensures p in state'.orderDepths <==> Lists(rows, timestamp, p) {
      if Lists(init, timestamp, p) {
        var i :| 0 <= i < |init| && Kept(init, timestamp, i) && init[i].product == p;
        assert rows[i] == init[i];
      }
      if Lists(rows, timestamp, p) && !(last.timestamp == timestamp && last.product == p) {
        var i :| 0 <= i < n && Kept(rows, timestamp, i) && rows[i].product == p;
        assert i < n - 1 && init[i] == rows[i];
      }
    }
  }

  /** Each product's book is that of its last kept row. */
  lemma LoadStepLastKept(rows: seq<PriceRow>, timestamp: int, state: TradingState)
    requires rows != []
    requires forall i :: 0 <= i < |rows| - 1 && LastKept(rows[..|rows| - 1], timestamp, i) ==>
      rows[i].product in state.orderDepths && state.orderDepths[rows[i].product] == BookOf(rows[i])
    ensures var state' := Extend(rows, timestamp, state);
      forall i :: 0 <= i < |rows| && LastKept(rows, timestamp, i) ==>
        rows[i].product in state'.orderDepths && state'.orderDepths[rows[i].product] == BookOf(rows[i])
  {
    var n := |rows|;
    var init := rows[..n - 1];
    var last := rows[n - 1];
    var state' := Extend(rows, timestamp, state);
    forall i | 0 <= i < n && LastKept(rows, timestamp, i)
      ensures rows[i].product in state'.orderDepths && state'.orderDepths[rows[i].product] == BookOf(rows[i])
    {
      if i < n - 1 {
        assert init[i] == rows[i];
        assert LastKept(init, timestamp, i) by {
          forall j | i < j < |init| && Kept(init, timestamp, j) ensures init[j].product != init[i].product {
            assert init[j] == rows[j];
          }
        }
        assert last.timestamp == timestamp ==> last.product != rows[i].product;
      }
    }
  }

  /** A product enters the list the first time one of its rows is kept. */
  lemma LoadStepProducts(rows: seq<PriceRow>, timestamp: int, state: TradingState)
    requires rows != []
    requires ListsKeysOnce(state.products, state.orderDepths.Keys)
    ensures ListsKeysOnce(Extend(rows, timestamp, state).products, Extend(rows, timestamp, state).orderDepths.Keys)
  {
    var last := rows[|rows| - 1];
    if last.timestamp == timestamp && last.product !in state.orderDepths {
      var products' := state.products + [last.product];
      assert forall j :: 0 <= j < |state.products| ==> products'[j] == state.products[j];
    }
  }

  /** Every product keeps its fresh entries. */
  lemma LoadStepEntries(rows: seq<PriceRow>, timestamp: int, state: TradingState)
    requires rows != []
    requires FreshEntries(state)
    ensures FreshEntries(Extend(rows, timestamp, state))
  {
  }

  /** The row `df.iloc[row_id]` selects: a negative index counts from the
      end, and an index outside the frame raises IndexError. */
  function ILoc(rows: seq<PriceRow>, rowId: int): (r: Result<PriceRow, Error>)
    ensures r.Err? <==> !(-|rows| <= rowId < |rows|)
    ensures r.Err? ==> r.error == IndexError
    ensures 0 <= rowId < |rows| ==> r == Ok(rows[rowId])
    ensures -|rows| <= rowId < 0 ==> r == Ok(rows[|rows| + rowId])
  {
    if 0 <= rowId < |rows| then Ok(rows[rowId])
    else if -|rows| <= rowId < 0 then Ok(rows[|rows| + rowId])
    else Err(IndexError)
  }

  /** `load_single_product(df, row_id)`: the state of one row's product. The
      row's timestamp is read and then overwritten with 0. */
  function LoadSingleProduct(rows: seq<PriceRow>, rowId: int): (r: Result<TradingState, Error>)
    ensures r.Err? <==> ILoc(rows, rowId).Err?
    ensures r.Err? ==> r.error == IndexError
    ensures r.Ok? ==>
      var row := ILoc(rows, rowId).value;
      && r.value.traderData == Sample
      && r.value.timestamp == 0
      && r.value.orderDepths == map[row.product := BookOf(row)]
      && r.value.products == [row.product]
      && FreshEntries(r.value)
  {
    match ILoc(rows, rowId)
    case Err(e) => Err(e)
    case Ok(row) =>
      var p := row.product;
      Ok(TradingState(Sample, 0, map[p := Listing(p, p, p)], map[p := BookOf(row)], [p], map[p := []], map[p := []], map[p := 0]))
  }

  /** Loading one row on its own is loading the frame of just that row at
      the row's timestamp, except that the timestamp is reset to 0. */
  lemma SingleIsFilteredLoad(rows: seq<PriceRow>, rowId: int)
    requires LoadSingleProduct(rows, rowId).Ok?
    ensures var row := ILoc(rows, rowId).value;
      LoadSingleProduct(rows, rowId).value == LoadAllProductsByTimestamp([row], row.timestamp).(timestamp := 0)
  {
    var row := ILoc(rows, rowId).value;
    assert [row][..0] == [];
  }
}

=== FILE: numbers.dfy ===
/** The Python numeric built-ins the trading rules use, written out over
    unbounded integers and exact reals. */
module Numbers {

  /** Python `min(a, b)` on integers. */
  function Min(a: int, b: int): (m: int)
    ensures m <= a && m <= b
    ensures m == a || m == b
  {
    if a <= b then a else b
  }

  /** Python `max(a, b)` on integers. */
  function Max(a: int, b: int): (m: int)
    ensures a <= m && b <= m
    ensures m == a || m == b
  {
    if a >= b then a else b
  }

  /** 2^k. */
  function Pow2(k: nat): (p: nat)
    ensures p >= 1
  {
    if k == 0 then 1 else 2 * Pow2(k - 1)
  }

  /** Python `a & b` on non-negative integers: bit i of the result is set
      exactly when bit i is set in both, built from the lowest bit up. */
  function BitAnd(a: nat, b: nat): (r: nat)
    ensures r <= a && r <= b
    decreases a
  {
    if a == 0 || b == 0 then 0
    else 2 * BitAnd(a / 2, b / 2) + (if a % 2 == 1 && b % 2 == 1 then 1 else 0)
  }

  /** Masking with k one-bits keeps every number below 2^k whole. */
  lemma {:induction false} BitAndAllOnes(a: nat, k: nat)
    requires a < Pow2(k)
    ensures BitAnd(a, Pow2(k) - 1) == a
  {
    if a != 0 {
      assert k > 0;
      var m := Pow2(k - 1);
      assert Pow2(k) - 1 == 2 * (m - 1) + 1;
      assert (Pow2(k) - 1) / 2 == m - 1 && (Pow2(k) - 1) % 2 == 1;
      BitAndAllOnes(a / 2, k - 1);
    }
  }

  /** `np.round(n / d)` for integers n and d > 0: round to nearest, ties to
      even. For an integer n the quotient n / 10 is a tie exactly when the
      true quotient is a half, and a half is exactly representable, so the
      floating-point rounding agrees with this integer definition. */
  function RoundHalfEven(n: int, d: int): (r: int)
    requires d > 0
    ensures 2 * (n - d * r) <= d && 2 * (d * r - n) <= d
    ensures (2 * (n - d * r) == d || 2 * (d * r - n) == d) ==> r % 2 == 0
  {
    var q := n / d;
    var rem := n % d;
    assert n == d * q + rem && 0 <= rem < d;
    if 2 * rem < d then
      assert n - d * q == rem;
      q
    else if 2 * rem > d then
      assert d * (q + 1) - n == d - rem by { assert d * (q + 1) == d * q + d; }
      q + 1
    else if q % 2 == 0 then
      assert n - d * q == rem;
      q
    else
      assert d * (q + 1) - n == d - rem by { assert d * (q + 1) == d * q + d; }
      q + 1
  }

  /** Python `int(n / 2)`: the half truncated toward zero (Dafny's own
      `/` rounds toward negative infinity for negative n). */
  function TruncHalf(n: int): (r: int)
    ensures n >= 0 ==> 0 <= 2 * r <= n < 2 * r + 2
    ensures n < 0 ==> 2 * r - 2 < n <= 2 * r <= 0
  {
    if n >= 0 then n / 2 else -((-n) / 2)
  }
}

=== FILE: resin.dfy ===
/** The RAINFOREST_RESIN market-making rule (example-program.py and
    Round2.py): the product is assumed to trade around 10000, so the trader
    buys no higher than 10000 and sells no lower than 10000, sizing each
    order by how far its price is from 10000.

    The branch guards are written `mid_price < 10000 & position <= 0` and
    `mid_price > 10000 & position >= 0`. Python binds `&` tighter than the
    comparisons, so they are the chained comparisons
    `mid < (10000 & position) <= 0` and `mid > (10000 & position) >= 0`,
    and that is what is modelled here. */
module Resin {
  import opened DataModel
  import opened TopOfBook
  import opened Numbers

  const FairPrice: int := 10000
  const MinEdge: int := 5

  /** Python's `10000 & position` on an unbounded two's-complement integer.
      10000 < 2^14, so only the low 14 bits of the position matter, and the
      Euclidean `position % 16384` is exactly those bits, negative positions
      included. */
  function AndFair(position: int): (a: int)
    ensures 0 <= a <= FairPrice
    ensures position % 16384 == 0 ==> a == 0
    ensures position % 16384 == 16383 ==> a == FairPrice
  {
    assert Pow2(14) == 16384;
    var low := position % 16384;
    if low == 16383 then
      BitAndAllOnes(FairPrice, 14);
      BitAnd(FairPrice, low)
    else
      BitAnd(FairPrice, low)
  }

  /** The buy guard as Python evaluates it, with the mid price doubled.
      Because `10000 & position` is never negative, the guard can only hold
      when that value is 0 and the mid price is negative. */
  function BuyGuard(doubledMid: int, position: int): (fires: bool)
    ensures fires <==> AndFair(position) == 0 && doubledMid < 0
  {
    var a := AndFair(position);
    doubledMid < 2 * a && a <= 0
  }

  /** The sell guard as Python evaluates it, with the mid price doubled. Its
      second comparison always holds, so it reduces to comparing the mid
      price with `10000 & position`. */
  function SellGuard(doubledMid: int, position: int): (fires: bool)
    ensures fires <==> doubledMid > 2 * AndFair(position)
  {
    var a := AndFair(position);
    doubledMid > 2 * a && a >= 0
  }

  /** `min(10000, best_bid + 1)`: improve the best bid by one tick, capped at 10000. */
  function BidPrice(book: OrderDepth): (p: int)
    requires |book.buyOrders| > 0
    ensures p <= FairPrice && p <= BestBid(book) + 1
    ensures p == FairPrice || p == BestBid(book) + 1
  {
    Min(FairPrice, BestBid(book) + 1)
  }

  /** `max(10000, best_ask - 1)`: undercut the best ask by one tick, floored at 10000. */
  function AskPrice(book: OrderDepth): (p: int)
    requires |book.sellOrders| > 0
    ensures p >= FairPrice && p >= BestAsk(book) - 1
    ensures p == FairPrice || p == BestAsk(book) - 1
  {
    Max(FairPrice, BestAsk(book) - 1)
  }

  /** `max(10000 - bid_price, 5)`, or `max(ask_price - 10000, 5)` for a sell:
      the edge over the fair price, never counted as less than 5. */
  function Edge(distance: int): (e: int)
    ensures e >= MinEdge && e >= distance
    ensures e == MinEdge || e == distance
  {
    Max(distance, MinEdge)
  }

  /** example-program.py: at most one order, a buy at BidPrice for enough to
      bring the position to ten times the edge, or a sell at AskPrice for
      enough to bring it to minus ten times the edge. */
  function SingleOrderRule(book: OrderDepth, position: int): (orders: seq<Order>)
    requires TwoSided(book)
    ensures |orders| <= 1
    ensures forall o :: o in orders ==> o.symbol == RAINFOREST_RESIN
    ensures |orders| == 1 <==> (AndFair(position) == 0 && DoubledMid(book) < 0) || DoubledMid(book) > 2 * AndFair(position)
    ensures |orders| == 1 && BuyGuard(DoubledMid(book), position) ==>
      && orders[0].price == BidPrice(book) as real
      && orders[0].price <= FairPrice as real
      && orders[0].quantity + position as real == (10 * Edge(FairPrice - BidPrice(book))) as real
      && (position <= 0 ==> orders[0].quantity >= 50.0)
    ensures |orders| == 1 && !BuyGuard(DoubledMid(book), position) ==>
      && orders[0].price == AskPrice(book) as real
      && orders[0].price >= FairPrice as real
      && -orders[0].quantity - position as real == (10 * Edge(AskPrice(book) - FairPrice)) as real
      && (position >= 0 ==> orders[0].quantity <= -50.0)
  {
    var mid2 := DoubledMid(book);
    if BuyGuard(mid2, position) then
      var bidPrice := BidPrice(book);
      var bidVol := Edge(FairPrice - bidPrice) * 10 - position;
      [Order(RAINFOREST_RESIN, bidPrice as real, bidVol as real)]
    else if SellGuard(mid2, position) then
      var askPrice := AskPrice(book);
      var askVol := Edge(askPrice - FairPrice) * 10 + position;
      [Order(RAINFOREST_RESIN, askPrice as real, -askVol as real)]
    else
      []
  }

  /** Round2.py: the same guards, but two orders per branch. A buy places
      two orders at BidPrice, the first sized to bring the position to five
      times the edge and the second for five times the edge again; a sell
      places one order at AskPrice and one a tick above it, sized the same
      way with opposite signs. */
  function TwoOrderRule(book: OrderDepth, position: int): (orders: seq<Order>)
    requires TwoSided(book)
    ensures |orders| == 0 || |orders| == 2
    ensures forall o :: o in orders ==> o.symbol == RAINFOREST_RESIN
    ensures |orders| == 2 <==> (AndFair(position) == 0 && DoubledMid(book) < 0) || DoubledMid(book) > 2 * AndFair(position)
    ensures |orders| == 2 && BuyGuard(DoubledMid(book), position) ==>
      && orders[0].price == orders[1].price == BidPrice(book) as real
      && orders[0].price <= FairPrice as real
      && orders[1].quantity == (5 * Edge(FairPrice - BidPrice(book))) as real
      && orders[0].quantity + position as real == orders[1].quantity
      && orders[1].quantity >= 25.0
    ensures |orders| == 2 && !BuyGuard(DoubledMid(book), position) ==>
      && orders[0].price == AskPrice(book) as real
      && orders[1].price == orders[0].price + 1.0
      && orders[0].price >= FairPrice as real
      && orders[1].quantity == -(5 * Edge(AskPrice(book) - FairPrice)) as real
      && orders[0].quantity + position as real == orders[1].quantity
      && orders[1].quantity <= -25.0
  {
    var mid2 := DoubledMid(book);
    if BuyGuard(mid2, position) then
      var bidPrice := BidPrice(book);
      var bidVol1 := Edge(FairPrice - bidPrice) * 5 - position;
      var bidVol2 := Edge(FairPrice - bidPrice) * 5;
      [Order(RAINFOREST_RESIN, bidPrice as real, bidVol1 as real),
       Order(RAINFOREST_RESIN, bidPrice as real, bidVol2 as real)]
    else if SellGuard(mid2, position) then
      var askPrice := AskPrice(book);
      var askVol1 := Edge(askPrice - FairPrice) * 5 + position;
      var askVol2 := Edge(askPrice - FairPrice) * 5;
      [Order(RAINFOREST_RESIN, askPrice as real, -askVol1 as real),
       Order(RAINFOREST_RESIN, (askPrice + 1) as real, -askVol2 as real)]
    else
      []
  }

  /** With a non-negative mid price (every real book) the buy branch of
      both rules is dead: any order they emit is a sell at or above 10000. */
  lemma NoBuyAtNonNegativeMid(book: OrderDepth, position: int)
    requires TwoSided(book)
    requires DoubledMid(book) >= 0
    ensures forall o :: o in SingleOrderRule(book, position) ==> o.price >= FairPrice as real
    ensures forall o :: o in TwoOrderRule(book, position) ==> o.price >= FairPrice as real
  {
  }

  /** Flat, the rule sells whenever the mid price is positive, however far
      below 10000 it is, and a position of -1 (all low bits set) restores the
      intended comparison with 10000. */
  lemma FlatPositionAlwaysSells(book: OrderDepth)
    requires TwoSided(book)
    requires DoubledMid(book) > 0
    ensures |SingleOrderRule(book, 0)| == 1
    ensures SingleOrderRule(book, 0)[0].quantity <= -50.0
    ensures |SingleOrderRule(book, -1)| == 1 <==> DoubledMid(book) > 2 * FairPrice
  {
    assert 0 % 16384 == 0 && -1 % 16384 == 16383;
    assert AndFair(0) == 0 && AndFair(-1) == FairPrice;
  }
}

=== FILE: round2.dfy ===
/** `Trader.run` of Round2.py. One loop over the products of the tick:
    SQUID_INK trades around a rolling mean skewed by the position,
    RAINFOREST_RESIN uses the two-order market-making rule, and each of the
    five basket products re-runs the basket block, which extends three spread
    histories and trades a basket against its synthetic replica on their
    z-scores.

    np.mean of the SQUID_INK history and the z-score of a spread window are
    abstract inputs (`mean` and `zStat`). */
module Round2 {
  import opened Wrappers
  import opened DataModel
  import opened TopOfBook
  import opened History
  import opened Numbers
  import opened Resin

  /** `if len(history) > 10: ... history.pop(0)` */
  const SquidHistoryLimit: nat := 10
  /** `if len(h) > 3000: h.pop(0)` */
  const SpreadCap: nat := 3000
  /** `calculate_z_score(series, window=3000)` */
  const ZWindow: nat := 3000
  /** `A_threshold` and `djembe_threshold` */
  const Threshold: real := 1.2
  /** `vol` */
  const BasketVolume: int := 5

  const SpreadAKey: string := "spread_A"
  const SpreadBKey: string := "spread_B"
  const SpreadDjembeKey: string := "spread_djembe"

  const BasketProducts: seq<Symbol> := [DJEMBES, JAMS, CROISSANTS, PICNIC_BASKET1, PICNIC_BASKET2]

  /** The weights of DJEMBES, JAMS and CROISSANTS in the synthetic replica of
      PICNIC_BASKET1. */
  const SyntheticAWeight: map<Symbol, int> := map[DJEMBES := 1, JAMS := 3, CROISSANTS := 6]

  /** The `data` entries a tick writes: the SQUID_INK price history and the
      three spread histories. */
  const EditedKeys: set<string> := {SQUID_INK, SpreadAKey, SpreadBKey, SpreadDjembeKey}

  /** `after` differs from `before` only in the histories a tick writes: no
      history is removed, no other history is added or changed, and the
      stored trade is handed on as it was. */
  predicate KeepsUnedited(before: Memory, after: Memory) {
    && before.histories.Keys <= after.histories.Keys <= before.histories.Keys + EditedKeys
    && (forall k :: k in before.histories && k !in EditedKeys ==> after.histories[k] == before.histories[k])
    && after.tradeToDemolish == before.tradeToDemolish
  }

  /** The orders collected so far and the `data` dictionary, threaded
      through the loop over products. */
  datatype Acc = Acc(orders: map<Symbol, seq<Order>>, memory: Memory)

  /** `-np.round(position / 10)`: minus the position in tens, ties to even. */
  function Skew(position: int): (k: int)
    ensures -5 <= position + 10 * k <= 5
    ensures (position + 10 * k == 5 || position + 10 * k == -5) ==> k % 2 == 0
  {
    -RoundHalfEven(position, 10)
  }

  /** The SQUID_INK order once the history is long enough, around
      `price = roll_mean + skew`: a buy at no more than price when the mid is
      at or below it, sized to bring the position to at least 25, and
      otherwise a sell at no less than price, sized to bring the position
      to at most -25. Exactly one order either way. */
  function SquidOrder(book: OrderDepth, position: int, rollMean: real): (o: Order)
    requires TwoSided(book)
    ensures o.symbol == SQUID_INK
    ensures var price := rollMean + Skew(position) as real;
      Mid(book) <= price ==>
        && o.price <= price
        && o.price <= (BestBid(book) + 1) as real
        && (o.price == price || o.price == (BestBid(book) + 1) as real)
        && o.quantity + position as real >= 5.0 * (price - o.price)
        && o.quantity + position as real >= 25.0
        && (o.quantity + position as real == 5.0 * (price - o.price) || o.quantity + position as real == 25.0)
    ensures var price := rollMean + Skew(position) as real;
      Mid(book) > price ==>
        && o.price >= price
        && o.price >= (BestAsk(book) - 1) as real
        && (o.price == price || o.price == (BestAsk(book) - 1) as real)
        && o.quantity + position as real <= -5.0 * (o.price - price)
        && o.quantity + position as real <= -25.0
        && (o.quantity + position as real == -5.0 * (o.price - price) || o.quantity + position as real == -25.0)
  {
    var price := rollMean + Skew(position) as real;
    if Mid(book) <= price then
      var bidPrice := if price <= (BestBid(book) + 1) as real then price else (BestBid(book) + 1) as real;
      var bidEdge := if price - bidPrice >= 5.0 then price - bidPrice else 5.0;
      var bidVol := bidEdge * 5.0 - position as real;
      Order(SQUID_INK, bidPrice, bidVol)
    else
      // `elif mid_price >= price` always holds here
      var askPrice := if price >= (BestAsk(book) - 1) as real then price else (BestAsk(book) - 1) as real;
      var askEdge := if askPrice - price >= 5.0 then askPrice - price else 5.0;
      var askVol := askEdge * 5.0 + position as real;
      Order(SQUID_INK, askPrice, -askVol)
  }

  /** `h.append(x)` then `if len(h) > 3000: h.pop(0)` on the history named key. */
  function ExtendHistory(memory: Memory, key: string, x: real, cap: nat): (m: Memory)
    requires cap > 0
    ensures HistoryOf(m, key) == AppendThenDrop(HistoryOf(memory, key), x, cap)
    ensures m.histories.Keys == memory.histories.Keys + {key}
    ensures forall k :: k in memory.histories && k != key ==> m.histories[k] == memory.histories[k]
    ensures m.tradeToDemolish == memory.tradeToDemolish
  {
    memory.(histories := memory.histories[key := AppendThenDrop(HistoryOf(memory, key), x, cap)])
  }

  /** The SQUID_INK orders: with more than 10 remembered prices, the single
      SquidOrder on their mean; none otherwise. */
  function SquidOrders(orders: map<Symbol, seq<Order>>, history: seq<real>, book: OrderDepth, position: int, mean: seq<real> -> real): (orders': map<Symbol, seq<Order>>)
    requires TwoSided(book)
    ensures orders'.Keys == orders.Keys + (if |history| > SquidHistoryLimit then {SQUID_INK} else {})
    ensures forall p :: p in orders && p != SQUID_INK ==> orders'[p] == orders[p]
    ensures |history| > SquidHistoryLimit ==> orders'[SQUID_INK] == [SquidOrder(book, position, mean(history))]
  {
    if |history| > SquidHistoryLimit then orders[SQUID_INK := [SquidOrder(book, position, mean(history))]]
    else orders
  }

  /** The SQUID_INK branch: trade on the history as it stands, then drop its
      oldest price if it holds more than 10 and append the mid price. */
  function SquidStep(acc: Acc, book: OrderDepth, position: int, mean: seq<real> -> real): (acc': Acc)
    requires TwoSided(book)
    ensures acc'.orders == SquidOrders(acc.orders, HistoryOf(acc.memory, SQUID_INK), book, position, mean)
    ensures HistoryOf(acc'.memory, SQUID_INK) == DropThenAppend(HistoryOf(acc.memory, SQUID_INK), Mid(book), SquidHistoryLimit)
    ensures acc'.memory.histories.Keys == acc.memory.histories.Keys + {SQUID_INK}
    ensures forall k :: k in acc.memory.histories && k != SQUID_INK ==> acc'.memory.histories[k] == acc.memory.histories[k]
    ensures acc'.memory.tradeToDemolish == acc.memory.tradeToDemolish
  {
    var history := HistoryOf(acc.memory, SQUID_INK);
    var history' := DropThenAppend(history, Mid(book), SquidHistoryLimit);
    Acc(SquidOrders(acc.orders, history, book, position, mean), acc.memory.(histories := acc.memory.histories[SQUID_INK := history']))
  }

  /** Both sides of every basket product's book are quoted:
      `if od and od.buy_orders and od.sell_orders` for all five. */
  predicate AllBasketsQuoted(depths: map<Symbol, OrderDepth>) {
    forall p :: p in BasketProducts ==> p in depths && TwoSided(depths[p])
  }

  function BasketMid(depths: map<Symbol, OrderDepth>, p: Symbol): real
    requires AllBasketsQuoted(depths) && p in BasketProducts
  {
    Mid(depths[p])
  }

  /** `synthetic_A`: the replica of PICNIC_BASKET1, valued at mids: a
      basket of SyntheticAWeight units of each component. */
  function SyntheticA(depths: map<Symbol, OrderDepth>): (v: real)
    requires AllBasketsQuoted(depths)
    ensures v == SyntheticAWeight[DJEMBES] as real * BasketMid(depths, DJEMBES)
      + SyntheticAWeight[JAMS] as real * BasketMid(depths, JAMS)
      + SyntheticAWeight[CROISSANTS] as real * BasketMid(depths, CROISSANTS)
  {
    BasketMid(depths, DJEMBES) + 3.0 * BasketMid(depths, JAMS) + 6.0 * BasketMid(depths, CROISSANTS)
  }

  /** `synthetic_B`: the replica of PICNIC_BASKET2, `2 * JAMS + 4 * CROISSANTS`. */
  function SyntheticB(depths: map<Symbol, OrderDepth>): (v: real)
    requires AllBasketsQuoted(depths)
    ensures v + BasketMid(depths, DJEMBES) + BasketMid(depths, JAMS) + 2.0 * BasketMid(depths, CROISSANTS) == SyntheticA(depths)
  {
    2.0 * BasketMid(depths, JAMS) + 4.0 * BasketMid(depths, CROISSANTS)
  }

  /** `spread_A`: how far basket 1 trades above its replica. */
  function SpreadA(depths: map<Symbol, OrderDepth>): (spread: real)
    requires AllBasketsQuoted(depths)
    ensures spread + SyntheticA(depths) == BasketMid(depths, PICNIC_BASKET1)
    ensures spread > 0.0 <==> BasketMid(depths, PICNIC_BASKET1) > SyntheticA(depths)
  {
    BasketMid(depths, PICNIC_BASKET1) - SyntheticA(depths)
  }

  /** `spread_B`: how far basket 2 trades above its replica. */
  function SpreadB(depths: map<Symbol, OrderDepth>): (spread: real)
    requires AllBasketsQuoted(depths)
    ensures spread + SyntheticB(depths) == BasketMid(depths, PICNIC_BASKET2)
    ensures spread > 0.0 <==> BasketMid(depths, PICNIC_BASKET2) > SyntheticB(depths)
  {
    BasketMid(depths, PICNIC_BASKET2) - SyntheticB(depths)
  }

  /** `spread_djembe`: basket 1 less one and a half basket 2 less DJEMBES,
      which is spread_A less one and a half spread_B (the identity the
      source notes in a comment): the JAMS and CROISSANTS cancel. */
  function SpreadDjembe(depths: map<Symbol, OrderDepth>): (spread: real)
    requires AllBasketsQuoted(depths)
    ensures spread == SpreadA(depths) - 1.5 * SpreadB(depths)
  {
    BasketMid(depths, PICNIC_BASKET1) - 1.5 * BasketMid(depths, PICNIC_BASKET2) - BasketMid(depths, DJEMBES)
  }

  /** `calculate_z_score(series)`: 0 while the series is shorter than the
      window, otherwise the statistic of its last 3000 values. */
  function ZScore(series: seq<real>, zStat: seq<real> -> real): (z: real)
    ensures |series| < ZWindow ==> z == 0.0
    ensures |series| >= ZWindow ==> z == zStat(Window(series, ZWindow))
  {
    if |series| < ZWindow then 0.0 else zStat(series[|series| - ZWindow..])
  }

  /** The order crosses the spread of its product's book: a buy pays the best
      ask and a sell takes the best bid. */
  predicate CrossesSpread(depths: map<Symbol, OrderDepth>, o: Order)
    requires AllBasketsQuoted(depths) && o.symbol in BasketProducts
  {
    && (o.quantity > 0.0 ==> o.price == BestAsk(depths[o.symbol]) as real)
    && (o.quantity < 0.0 ==> o.price == BestBid(depths[o.symbol]) as real)
  }

  /** Basket 1 against its replica: when |z_A| exceeds the threshold, trade
      `vol` baskets one way and each replica component the other way in
      proportion to its synthetic weight. */
  function LegOrders(zA: real, depths: map<Symbol, OrderDepth>): (legs: seq<Order>)
    requires AllBasketsQuoted(depths)
    ensures |legs| == 0 || |legs| == 4
    ensures |legs| == 4 <==> zA > Threshold || zA < -Threshold
    ensures |legs| == 4 ==>
      && legs[0].symbol == PICNIC_BASKET1 && legs[1].symbol == DJEMBES
      && legs[2].symbol == JAMS && legs[3].symbol == CROISSANTS
      && (forall i :: 1 <= i < 4 ==> legs[i].quantity == -(SyntheticAWeight[legs[i].symbol] as real) * legs[0].quantity)
      && (legs[0].quantity == -BasketVolume as real <==> zA > Threshold)
      && (legs[0].quantity == BasketVolume as real <==> zA < -Threshold)
    ensures forall o :: o in legs ==> o.symbol in BasketProducts && CrossesSpread(depths, o)
  {
    if zA > Threshold then
      // PB1 is rich: short it, long the replica
      [Order(PICNIC_BASKET1, BestBid(depths[PICNIC_BASKET1]) as real, -BasketVolume as real),
       Order(DJEMBES, BestAsk(depths[DJEMBES]) as real, (1 * BasketVolume) as real),
       Order(JAMS, BestAsk(depths[JAMS]) as real, (3 * BasketVolume) as real),
       Order(CROISSANTS, BestAsk(depths[CROISSANTS]) as real, (6 * BasketVolume) as real)]
    else if zA < -Threshold then
      // PB1 is cheap: long it, short the replica
      [Order(PICNIC_BASKET1, BestAsk(depths[PICNIC_BASKET1]) as real, BasketVolume as real),
       Order(DJEMBES, BestBid(depths[DJEMBES]) as real, (-1 * BasketVolume) as real),
       Order(JAMS, BestBid(depths[JAMS]) as real, (-3 * BasketVolume) as real),
       Order(CROISSANTS, BestBid(depths[CROISSANTS]) as real, (-6 * BasketVolume) as real)]
    else
      []
  }

  /** The basket-1 legs hedge: marked to mids, the four legs are worth
      exactly the basket quantity times spread_A, so the trade is a bet on
      the spread alone and not on the level of any component. */
  lemma LegOrdersTradeSpreadA(zA: real, depths: map<Symbol, OrderDepth>)
    requires AllBasketsQuoted(depths)
    ensures var legs := LegOrders(zA, depths);
      |legs| == 4 ==>
        legs[0].quantity * BasketMid(depths, PICNIC_BASKET1)
        + legs[1].quantity * BasketMid(depths, DJEMBES)
        + legs[2].quantity * BasketMid(depths, JAMS)
        + legs[3].quantity * BasketMid(depths, CROISSANTS)
        == legs[0].quantity * SpreadA(depths)
  {
    var legs := LegOrders(zA, depths);
    var m1, md, mj, mc := BasketMid(depths, PICNIC_BASKET1), BasketMid(depths, DJEMBES),
      BasketMid(depths, JAMS), BasketMid(depths, CROISSANTS);
    assert SyntheticAWeight[DJEMBES] == 1 && SyntheticAWeight[JAMS] == 3 && SyntheticAWeight[CROISSANTS] == 6;
    var v := BasketVolume as real;
    if zA > Threshold {
      assert legs[0].quantity == -v && legs[1].quantity == v && legs[2].quantity == 3.0 * v && legs[3].quantity == 6.0 * v;
      HedgeIdentity(-v, v, 3.0 * v, 6.0 * v, m1, md, mj, mc, SpreadA(depths));
    } else if zA < -Threshold {
      assert legs[0].quantity == v && legs[1].quantity == -v && legs[2].quantity == -3.0 * v && legs[3].quantity == -6.0 * v;
      HedgeIdentity(v, -v, -3.0 * v, -6.0 * v, m1, md, mj, mc, SpreadA(depths));
    }
  }

  /** The arithmetic behind the hedge: long q of a basket and short q of
      its 1/3/6 replica is worth q times the basket-minus-replica spread. */
  lemma HedgeIdentity(q: real, qd: real, qj: real, qc: real, m1: real, md: real, mj: real, mc: real, spread: real)
    requires qd == -q && qj == -3.0 * q && qc == -6.0 * q
    requires spread == m1 - (md + 3.0 * mj + 6.0 * mc)
    ensures q * m1 + qd * md + qj * mj + qc * mc == q * spread
  {
  }

  /** The DJEMBES pair trade: short `vol` DJEMBES when z_pair exceeds the
      threshold, long them when it is below minus the threshold. */
  function PairOrders(zPair: real, depths: map<Symbol, OrderDepth>): (pair: seq<Order>)
    requires AllBasketsQuoted(depths)
    ensures |pair| <= 1
    ensures |pair| == 1 <==> zPair > Threshold || zPair < -Threshold
    ensures |pair| == 1 ==> pair[0].symbol == DJEMBES
    ensures |pair| == 1 ==> (pair[0].quantity == -BasketVolume as real <==> zPair > Threshold)
    ensures |pair| == 1 ==> (pair[0].quantity == BasketVolume as real <==> zPair < -Threshold)
    ensures forall o :: o in pair ==> o.symbol in BasketProducts && CrossesSpread(depths, o)
  {
    if zPair > Threshold then [Order(DJEMBES, BestBid(depths[DJEMBES]) as real, -BasketVolume as real)]
    else if zPair < -Threshold then [Order(DJEMBES, BestAsk(depths[DJEMBES]) as real, BasketVolume as real)]
    else []
  }

  /** The three spread histories after appending this tick's spreads a, b
      and d to "spread_A", "spread_B" and "spread_djembe". */
  function ExtendSpreads(memory: Memory, a: real, b: real, d: real): (m: Memory)
    ensures KeepsUnedited(memory, m)
  {
    var mA := ExtendHistory(memory, SpreadAKey, a, SpreadCap);
    var mB := ExtendHistory(mA, SpreadBKey, b, SpreadCap);
    ExtendHistory(mB, SpreadDjembeKey, d, SpreadCap)
  }

  /** The basket block, run once for each basket product in the loop. When
      all five books are quoted it extends the spread histories and builds
      the leg and pair orders; the loop that files them then reads
      `order.product`, an attribute Order does not have, so any order at all
      raises AttributeError. */
  function BasketStep(depths: map<Symbol, OrderDepth>, acc: Acc, zStat: seq<real> -> real): (r: Result<Acc, Error>)
    ensures !AllBasketsQuoted(depths) ==> r == Ok(acc)
    ensures AllBasketsQuoted(depths) ==>
      var m := ExtendSpreads(acc.memory, SpreadA(depths), SpreadB(depths), SpreadDjembe(depths));
      var orders := LegOrders(ZScore(HistoryOf(m, SpreadAKey), zStat), depths)
        + PairOrders(ZScore(HistoryOf(m, SpreadDjembeKey), zStat), depths);
      && (r.Err? <==> orders != [])
      && (r.Err? ==> r.error == AttributeError)
      && (r.Ok? ==> r.value == Acc(acc.orders, m))
  {
    if AllBasketsQuoted(depths) then
      var m := ExtendSpreads(acc.memory, SpreadA(depths), SpreadB(depths), SpreadDjembe(depths));
      var zA := ZScore(HistoryOf(m, SpreadAKey), zStat);
      // z_B is computed from "spread_B" too, but never used
      var zPair := ZScore(HistoryOf(m, SpreadDjembeKey), zStat);
      var orders := LegOrders(zA, depths) + PairOrders(zPair, depths);
      if orders != [] then Err(AttributeError) else Ok(Acc(acc.orders, m))
    else
      Ok(acc)
  }

  /** The loop body for one product. */
  function Step(state: TradingState, p: Symbol, acc: Acc, mean: seq<real> -> real, zStat: seq<real> -> real): (r: Result<Acc, Error>)
    requires p in state.orderDepths && AllTwoSided(state.orderDepths)
    ensures r.Err? ==> p in BasketProducts && r.error == AttributeError
    ensures r.Ok? ==> KeepsUnedited(acc.memory, r.value.memory)
  {
    var book := state.orderDepths[p];
    var position := PositionOf(state, p);
    if p == SQUID_INK then
      Ok(SquidStep(acc, book, position, mean))
    else if p == RAINFOREST_RESIN then
      Ok(acc.(orders := acc.orders[p := TwoOrderRule(book, position)]))
    else if p in BasketProducts then
      BasketStep(state.orderDepths, acc, zStat)
    else
      Ok(acc)
  }

  /** The loop over the products, in dictionary order, stopping at the first
      exception. */
  function RunProducts(state: TradingState, products: seq<Symbol>, acc: Acc, mean: seq<real> -> real, zStat: seq<real> -> real): (r: Result<Acc, Error>)
    requires AllTwoSided(state.orderDepths)
    requires forall p :: p in products ==> p in state.orderDepths
    ensures r.Err? ==> r.error == AttributeError
    ensures r.Ok? ==> KeepsUnedited(acc.memory, r.value.memory)
    decreases |products|
  {
    if products == [] then Ok(acc)
    else
      match Step(state, products[0], acc, mean, zStat)
      case Err(e) => Err(e)
      case Ok(acc') => RunProducts(state, products[1..], acc', mean, zStat)
  }

  /** `jsonpickle.decode(state.traderData) if state.traderData else {}`. The
      literal "SAMPLE" is not JSON, so decoding it raises. */
  function DecodeMemory(traderData: TraderData): (r: Result<Memory, Error>)
    ensures r.Err? <==> traderData == Sample
    ensures r.Err? ==> r.error == DecodeError
    ensures traderData.Pickled? ==> r == Ok(traderData.memory)
    ensures traderData == Blank ==> r == Ok(EmptyMemory)
  {
    match traderData
    case Blank => Ok(EmptyMemory)
    case Sample => Err(DecodeError)
    case Pickled(m) => Ok(m)
  }

  /** One tick. */
  function Run(state: TradingState, mean: seq<real> -> real, zStat: seq<real> -> real): (out: Result<TickOutput, Error>)
    requires AllTwoSided(state.orderDepths)
    requires ListsKeysOnce(state.products, state.orderDepths.Keys)
    ensures state.traderData == Sample ==> out == Err(DecodeError)
    ensures out.Ok? ==> out.value.conversions == 1 && out.value.traderData.Pickled?
    ensures out.Ok? ==> state.traderData != Sample && KeepsUnedited(StartMemory(state), out.value.traderData.memory)
  {
    match DecodeMemory(state.traderData)
    case Err(e) => Err(e)
    case Ok(memory) =>
      match RunProducts(state, state.products, Acc(map[], memory), mean, zStat)
      case Err(e) => Err(e)
      case Ok(acc) => Ok(TickOutput(acc.orders, 1, Pickled(acc.memory)))
  }

  // ---------------------------------------------------------------------
  // What a tick files and remembers, independently of the loop order

  /** The reference for the orders a tick files: RAINFOREST_RESIN always
      gets its two-order rule (possibly empty), SQUID_INK gets its one order
      when more than 10 prices were remembered, and nothing else is filed. */
  function FiledOrders(state: TradingState, products: seq<Symbol>, squidHistory: seq<real>, mean: seq<real> -> real): map<Symbol, seq<Order>>
    requires AllTwoSided(state.orderDepths)
    requires forall p :: p in products ==> p in state.orderDepths
  {
    map p | p in products && (p == RAINFOREST_RESIN || (p == SQUID_INK && |squidHistory| > SquidHistoryLimit)) ::
      if p == RAINFOREST_RESIN then TwoOrderRule(state.orderDepths[p], PositionOf(state, p))
      else [SquidOrder(state.orderDepths[p], PositionOf(state, p), mean(squidHistory))]
  }

  /** The one of a, b and d that the basket block appends to the history
      named key. */
  function SpreadFor(key: string, a: real, b: real, d: real): real
  {
    if key == SpreadAKey then a else if key == SpreadBKey then b else d
  }

  /** The number of basket products among the products. */
  function CountBaskets(products: seq<Symbol>): (n: nat)
    ensures n <= |products|
  {
    if products == [] then 0
    else (if products[0] in BasketProducts then 1 else 0) + CountBaskets(products[1..])
  }

  /** The basket block appends each tick's spread to each of the three
      spread histories and leaves every other history alone. */
  lemma ExtendSpreadsEffect(memory: Memory, a: real, b: real, d: real, key: string)
    ensures key in {SpreadAKey, SpreadBKey, SpreadDjembeKey} ==>
      HistoryOf(ExtendSpreads(memory, a, b, d), key) == AppendThenDrop(HistoryOf(memory, key), SpreadFor(key, a, b, d), SpreadCap)
    ensures key !in {SpreadAKey, SpreadBKey, SpreadDjembeKey} ==>
      HistoryOf(ExtendSpreads(memory, a, b, d), key) == HistoryOf(memory, key)
  {
    var mA := ExtendHistory(memory, SpreadAKey, a, SpreadCap);
    var mB := ExtendHistory(mA, SpreadBKey, b, SpreadCap);
    var mD := ExtendHistory(mB, SpreadDjembeKey, d, SpreadCap);
    assert ExtendSpreads(memory, a, b, d) == mD;
    if key == SpreadAKey {
      ExtendHistoryKeepsOthers(mA, SpreadBKey, b, SpreadCap, key);
      ExtendHistoryKeepsOthers(mB, SpreadDjembeKey, d, SpreadCap, key);
    } else if key == SpreadBKey {
      ExtendHistoryKeepsOthers(mB, SpreadDjembeKey, d, SpreadCap, key);
    } else if key != SpreadDjembeKey {
      ExtendHistoryKeepsOthers(memory, SpreadAKey, a, SpreadCap, key);
      ExtendHistoryKeepsOthers(mA, SpreadBKey, b, SpreadCap, key);
      ExtendHistoryKeepsOthers(mB, SpreadDjembeKey, d, SpreadCap, key);
    }
  }

  /** Extending one history leaves every other history alone. */
  lemma ExtendHistoryKeepsOthers(memory: Memory, key: string, x: real, cap: nat, other: string)
    requires cap > 0 && other != key
    ensures HistoryOf(ExtendHistory(memory, key, x, cap), other) == HistoryOf(memory, other)
  {
  }

  /** Only RAINFOREST_RESIN and SQUID_INK are ever filed. */
  lemma FiledOnlyResinAndSquid(state: TradingState, products: seq<Symbol>, squidHistory: seq<real>, mean: seq<real> -> real)
    requires AllTwoSided(state.orderDepths)
    requires forall p :: p in products ==> p in state.orderDepths
    ensures FiledOrders(state, products, squidHistory, mean).Keys <= {RAINFOREST_RESIN, SQUID_INK}
  {
  }

  /** What the reference files for SQUID_INK alone. */
  lemma FiledSquid(state: TradingState, h: seq<real>, mean: seq<real> -> real)
    requires SQUID_INK in state.orderDepths && AllTwoSided(state.orderDepths)
    ensures |h| > SquidHistoryLimit ==>
      FiledOrders(state, [SQUID_INK], h, mean) == map[SQUID_INK := [SquidOrder(state.orderDepths[SQUID_INK], PositionOf(state, SQUID_INK), mean(h))]]
    ensures |h| <= SquidHistoryLimit ==> FiledOrders(state, [SQUID_INK], h, mean) == map[]
  {
  }

  /** The SQUID_INK pass of the loop body. */
  lemma SquidStepEffect(state: TradingState, acc: Acc, mean: seq<real> -> real, zStat: seq<real> -> real)
    requires SQUID_INK in state.orderDepths && AllTwoSided(state.orderDepths)
    ensures var r := Step(state, SQUID_INK, acc, mean, zStat);
      var h := HistoryOf(acc.memory, SQUID_INK);
      && r.Ok?
      && r.value.orders == acc.orders + FiledOrders(state, [SQUID_INK], h, mean)
      && HistoryOf(r.value.memory, SQUID_INK) == DropThenAppend(h, Mid(state.orderDepths[SQUID_INK]), SquidHistoryLimit)
  {
    var h := HistoryOf(acc.memory, SQUID_INK);
    var book := state.orderDepths[SQUID_INK];
    var position := PositionOf(state, SQUID_INK);
    var acc' := SquidStep(acc, book, position, mean);
    assert Step(state, SQUID_INK, acc, mean, zStat) == Ok(acc');
    SquidOrdersFiled(state, acc.orders, h, mean);
  }

  /** SquidOrders adds to the orders exactly what the reference files for
      SQUID_INK. */
  lemma SquidOrdersFiled(state: TradingState, orders: map<Symbol, seq<Order>>, h: seq<real>, mean: seq<real> -> real)
    requires SQUID_INK in state.orderDepths && AllTwoSided(state.orderDepths)
    ensures SquidOrders(orders, h, state.orderDepths[SQUID_INK], PositionOf(state, SQUID_INK), mean) == orders + FiledOrders(state, [SQUID_INK], h, mean)
  {
    var book := state.orderDepths[SQUID_INK];
    var position := PositionOf(state, SQUID_INK);
    FiledSquid(state, h, mean);
    if |h| > SquidHistoryLimit {
      assert SquidOrders(orders, h, book, position, mean) == orders[SQUID_INK := [SquidOrder(book, position, mean(h))]];
    } else {
      assert SquidOrders(orders, h, book, position, mean) == orders;
    }
  }

  /** The RAINFOREST_RESIN pass of the loop body. */
  lemma ResinStepEffect(state: TradingState, acc: Acc, mean: seq<real> -> real, zStat: seq<real> -> real)
    requires RAINFOREST_RESIN in state.orderDepths && AllTwoSided(state.orderDepths)
    ensures var r := Step(state, RAINFOREST_RESIN, acc, mean, zStat);
      var h := HistoryOf(acc.memory, SQUID_INK);
      && r.Ok?
      && r.value.orders == acc.orders + FiledOrders(state, [RAINFOREST_RESIN], h, mean)
      && r.value.memory == acc.memory
  {
    var h := HistoryOf(acc.memory, SQUID_INK);
    var rule := TwoOrderRule(state.orderDepths[RAINFOREST_RESIN], PositionOf(state, RAINFOREST_RESIN));
    FiledResin(state, h, mean);
    UpdateIsMerge(acc.orders, RAINFOREST_RESIN, rule);
    assert Step(state, RAINFOREST_RESIN, acc, mean, zStat) == Ok(acc.(orders := acc.orders[RAINFOREST_RESIN := rule]));
  }

  /** What a RAINFOREST_RESIN pass files. */
  lemma FiledResin(state: TradingState, squidHistory: seq<real>, mean: seq<real> -> real)
    requires RAINFOREST_RESIN in state.orderDepths && AllTwoSided(state.orderDepths)
    ensures FiledOrders(state, [RAINFOREST_RESIN], squidHistory, mean)
      == map[RAINFOREST_RESIN := TwoOrderRule(state.orderDepths[RAINFOREST_RESIN], PositionOf(state, RAINFOREST_RESIN))]
  {
  }

  /** Filing one product's orders is merging a one-entry map. */
  lemma UpdateIsMerge(orders: map<Symbol, seq<Order>>, p: Symbol, filed: seq<Order>)
    ensures orders[p := filed] == orders + map[p := filed]
  {
  }

  /** Any other pass of the loop body files nothing and leaves the SQUID_INK
      history alone; only a basket pass can raise. */
  lemma OtherStepEffect(state: TradingState, p: Symbol, acc: Acc, mean: seq<real> -> real, zStat: seq<real> -> real)
    requires p in state.orderDepths && AllTwoSided(state.orderDepths)
    requires p != SQUID_INK && p != RAINFOREST_RESIN
    ensures p !in BasketProducts ==> Step(state, p, acc, mean, zStat) == Ok(acc)
    ensures var r := Step(state, p, acc, mean, zStat);
      var h := HistoryOf(acc.memory, SQUID_INK);
      r.Ok? ==>
        && r.value.orders == acc.orders + FiledOrders(state, [p], h, mean)
        && HistoryOf(r.value.memory, SQUID_INK) == h
  {
    var h := HistoryOf(acc.memory, SQUID_INK);
    assert FiledOrders(state, [p], h, mean) == map[];
    assert acc.orders + map[] == acc.orders;
    var depths := state.orderDepths;
    if p in BasketProducts && AllBasketsQuoted(depths) {
      ExtendSpreadsEffect(acc.memory, SpreadA(depths), SpreadB(depths), SpreadDjembe(depths), SQUID_INK);
    }
  }

  /** The effect of one pass of the loop body on the orders and on the
      SQUID_INK history. */
  lemma StepEffect(state: TradingState, p: Symbol, acc: Acc, mean: seq<real> -> real, zStat: seq<real> -> real)
    requires p in state.orderDepths && AllTwoSided(state.orderDepths)
    ensures p !in BasketProducts ==> Step(state, p, acc, mean, zStat).Ok?
    ensures var r := Step(state, p, acc, mean, zStat);
      var h := HistoryOf(acc.memory, SQUID_INK);
      r.Ok? ==>
        && r.value.orders == acc.orders + FiledOrders(state, [p], h, mean)
        && HistoryOf(r.value.memory, SQUID_INK) == (if p == SQUID_INK then DropThenAppend(h, Mid(state.orderDepths[p]), SquidHistoryLimit) else h)
  {
    if p == SQUID_INK {
      SquidStepEffect(state, acc, mean, zStat);
    } else if p == RAINFOREST_RESIN {
      ResinStepEffect(state, acc, mean, zStat);
    } else {
      OtherStepEffect(state, p, acc, mean, zStat);
    }
  }

  /** The SQUID_INK history only matters to the reference when SQUID_INK is
      among the products. */
  lemma FiledIgnoresHistory(state: TradingState, products: seq<Symbol>, h1: seq<real>, h2: seq<real>, mean: seq<real> -> real)
    requires AllTwoSided(state.orderDepths)
    requires forall p :: p in products ==> p in state.orderDepths
    requires SQUID_INK !in products
    ensures FiledOrders(state, products, h1, mean) == FiledOrders(state, products, h2, mean)
  {
  }

  /** The reference files the first product and then the rest. */
  lemma FiledSplit(state: TradingState, products: seq<Symbol>, h: seq<real>, mean: seq<real> -> real)
    requires AllTwoSided(state.orderDepths)
    requires forall p :: p in products ==> p in state.orderDepths
    requires products != []
    ensures FiledOrders(state, products, h, mean) == FiledOrders(state, [products[0]], h, mean) + FiledOrders(state, products[1..], h, mean)
  {
    var all := FiledOrders(state, products, h, mean);
    var first := FiledOrders(state, [products[0]], h, mean);
    var rest := FiledOrders(state, products[1..], h, mean);
    assert forall p :: p in products <==> p == products[0] || p in products[1..];
    assert all.Keys == (first + rest).Keys;
  }

  /** Map union, where the right operand wins, is associative. */
  lemma UnionAssociates<K, V>(a: map<K, V>, b: map<K, V>, c: map<K, V>)
    ensures (a + b) + c == a + (b + c)
  {
  }

  /** A loop whose first pass succeeds continues with the rest of the
      products from that pass's accumulator. */
  lemma RunProductsStep(state: TradingState, products: seq<Symbol>, acc: Acc, mean: seq<real> -> real, zStat: seq<real> -> real)
    requires AllTwoSided(state.orderDepths)
    requires forall p :: p in products ==> p in state.orderDepths
    requires products != []
    ensures forall p :: p in products[1..] ==> p in state.orderDepths
    ensures var s := Step(state, products[0], acc, mean, zStat);
      s.Ok? ==> RunProducts(state, products, acc, mean, zStat) == RunProducts(state, products[1..], s.value, mean, zStat)
  {
  }

  /** A loop whose first pass does not raise continues with the rest. */
  lemma RunProductsUnfold(state: TradingState, products: seq<Symbol>, acc: Acc, mean: seq<real> -> real, zStat: seq<real> -> real)
    requires AllTwoSided(state.orderDepths)
    requires forall p :: p in products ==> p in state.orderDepths
    requires products != [] && Distinct(products)
    ensures Distinct(products[1..]) && products[0] !in products[1..]
    ensures var s := Step(state, products[0], acc, mean, zStat);
      s.Ok? ==> RunProducts(state, products, acc, mean, zStat) == RunProducts(state, products[1..], s.value, mean, zStat)
    ensures var s := Step(state, products[0], acc, mean, zStat);
      s.Err? ==> RunProducts(state, products, acc, mean, zStat) == Err(s.error)
  {
    var rest := products[1..];
    forall i | 0 <= i < |rest| ensures rest[i] != products[0] {
      assert rest[i] == products[i + 1];
    }
  }

  /** However the products are ordered, a loop that does not raise files
      exactly the reference orders on top of those it started with. */
  lemma {:induction false} RunProductsFiles(state: TradingState, products: seq<Symbol>, acc: Acc, mean: seq<real> -> real, zStat: seq<real> -> real)
    requires AllTwoSided(state.orderDepths)
    requires forall p :: p in products ==> p in state.orderDepths
    requires Distinct(products)
    ensures var r := RunProducts(state, products, acc, mean, zStat);
      r.Ok? ==> r.value.orders == acc.orders + FiledOrders(state, products, HistoryOf(acc.memory, SQUID_INK), mean)
    decreases |products|
  {
    var h := HistoryOf(acc.memory, SQUID_INK);
    if products == [] {
      assert FiledOrders(state, products, h, mean) == map[];
      assert acc.orders + map[] == acc.orders;
    } else {
      var p := products[0];
      var rest := products[1..];
      RunProductsUnfold(state, products, acc, mean, zStat);
      StepEffect(state, p, acc, mean, zStat);
      var s := Step(state, p, acc, mean, zStat);
      if s.Ok? {
        var acc' := s.value;
        RunProductsFiles(state, rest, acc', mean, zStat);
        FiledSplit(state, products, h, mean);
        if p == SQUID_INK {
          FiledIgnoresHistory(state, rest, HistoryOf(acc'.memory, SQUID_INK), h, mean);
        }
        var first := FiledOrders(state, [p], h, mean);
        var later := FiledOrders(state, rest, h, mean);
        UnionAssociates(acc.orders, first, later);
      }
    }
  }

  /** A loop that does not raise updates the SQUID_INK history once if
      SQUID_INK is among the products, and leaves it alone otherwise. */
  lemma {:induction false} RunProductsSquidHistory(state: TradingState, products: seq<Symbol>, acc: Acc, mean: seq<real> -> real, zStat: seq<real> -> real)
    requires AllTwoSided(state.orderDepths)
    requires forall p :: p in products ==> p in state.orderDepths
    requires Distinct(products)
    ensures var r := RunProducts(state, products, acc, mean, zStat);
      var h := HistoryOf(acc.memory, SQUID_INK);
      r.Ok? ==>
        HistoryOf(r.value.memory, SQUID_INK) == (if SQUID_INK in products then DropThenAppend(h, Mid(state.orderDepths[SQUID_INK]), SquidHistoryLimit) else h)
    decreases |products|
  {
    if products != [] {
      var p := products[0];
      RunProductsUnfold(state, products, acc, mean, zStat);
      StepEffect(state, p, acc, mean, zStat);
      var s := Step(state, p, acc, mean, zStat);
      if s.Ok? {
        RunProductsSquidHistory(state, products[1..], s.value, mean, zStat);
      }
    }
  }

  // ---------------------------------------------------------------------
  // The spread histories and when the basket block raises

  /** This tick's spread for the history named key. */
  function TickSpread(key: string, depths: map<Symbol, OrderDepth>): real
    requires AllBasketsQuoted(depths)
  {
    SpreadFor(key, SpreadA(depths), SpreadB(depths), SpreadDjembe(depths))
  }

  /** The basket products among the products, as a set. */
  function BasketsAmong(products: seq<Symbol>): set<Symbol> {
    set p | p in products && p in BasketProducts
  }

  /** Over distinct products, CountBaskets counts distinct basket products. */
  lemma {:induction false} CountIsBasketsAmong(products: seq<Symbol>)
    requires Distinct(products)
    ensures CountBaskets(products) == |BasketsAmong(products)|
    decreases |products|
  {
    if products != [] {
      var rest := products[1..];
      assert Distinct(rest) && products[0] !in rest by {
        forall i | 0 <= i < |rest| ensures rest[i] != products[0] {
          assert rest[i] == products[i + 1];
        }
      }
      CountIsBasketsAmong(rest);
      assert forall p :: p in products <==> p == products[0] || p in rest;
      if products[0] in BasketProducts {
        assert BasketsAmong(products) == BasketsAmong(rest) + {products[0]};
      } else {
        assert BasketsAmong(products) == BasketsAmong(rest);
      }
    }
  }

  /** When every basket product has a book, the loop runs the basket block
      exactly five times. */
  lemma CountAllBaskets(products: seq<Symbol>, depths: map<Symbol, OrderDepth>)
    requires ListsKeysOnce(products, depths.Keys)
    requires AllBasketsQuoted(depths)
    ensures CountBaskets(products) == |BasketProducts| == 5
  {
    CountIsBasketsAmong(products);
    assert BasketsAmong(products) == {DJEMBES, JAMS, CROISSANTS, PICNIC_BASKET1, PICNIC_BASKET2};
  }

  /** The effect of one pass of the loop body on a spread history: a basket
      pass with every basket quoted appends this tick's spread, every other
      pass leaves it alone. */
  lemma StepSpreadEffect(state: TradingState, p: Symbol, acc: Acc, mean: seq<real> -> real, zStat: seq<real> -> real, key: string)
    requires p in state.orderDepths && AllTwoSided(state.orderDepths)
    requires key in {SpreadAKey, SpreadBKey, SpreadDjembeKey}
    ensures var r := Step(state, p, acc, mean, zStat);
      var h := HistoryOf(acc.memory, key);
      r.Ok? ==>
        HistoryOf(r.value.memory, key) ==
          (if p in BasketProducts && AllBasketsQuoted(state.orderDepths) then AppendThenDrop(h, TickSpread(key, state.orderDepths), SpreadCap) else h)
  {
    var depths := state.orderDepths;
    var r := Step(state, p, acc, mean, zStat);
    var h := HistoryOf(acc.memory, key);
    if p == SQUID_INK {
      assert p !in BasketProducts;
      SquidStepKeepsOthers(state, acc, mean, zStat, key);
    } else if p == RAINFOREST_RESIN {
      assert p !in BasketProducts;
      assert r == Ok(acc.(orders := acc.orders[p := TwoOrderRule(depths[p], PositionOf(state, p))]));
    } else if p in BasketProducts {
      assert r == BasketStep(depths, acc, zStat);
      BasketStepSpread(depths, acc, zStat, key);
    } else {
      assert r == Ok(acc);
    }
  }

  /** The SQUID_INK pass leaves every other history alone. */
  lemma SquidStepKeepsOthers(state: TradingState, acc: Acc, mean: seq<real> -> real, zStat: seq<real> -> real, key: string)
    requires SQUID_INK in state.orderDepths && AllTwoSided(state.orderDepths)
    requires key != SQUID_INK
    ensures var r := Step(state, SQUID_INK, acc, mean, zStat);
      r.Ok? && HistoryOf(r.value.memory, key) == HistoryOf(acc.memory, key)
  {
    var acc' := SquidStep(acc, state.orderDepths[SQUID_INK], PositionOf(state, SQUID_INK), mean);
    assert Step(state, SQUID_INK, acc, mean, zStat) == Ok(acc');
  }

  /** A basket pass that does not raise appends this tick's spread when
      every basket is quoted. */
  lemma BasketStepSpread(depths: map<Symbol, OrderDepth>, acc: Acc, zStat: seq<real> -> real, key: string)
    requires key in {SpreadAKey, SpreadBKey, SpreadDjembeKey}
    ensures var r := BasketStep(depths, acc, zStat);
      var h := HistoryOf(acc.memory, key);
      r.Ok? ==>
        HistoryOf(r.value.memory, key) == (if AllBasketsQuoted(depths) then AppendThenDrop(h, TickSpread(key, depths), SpreadCap) else h)
  {
    if AllBasketsQuoted(depths) {
      ExtendSpreadsEffect(acc.memory, SpreadA(depths), SpreadB(depths), SpreadDjembe(depths), key);
    }
  }

  /** The basket block raises only when a z-score is past the threshold,
      which needs a spread history that fills the z-score window once this
      tick's spread is appended. */
  lemma BasketStepRaises(depths: map<Symbol, OrderDepth>, acc: Acc, zStat: seq<real> -> real)
    ensures var r := BasketStep(depths, acc, zStat);
      r.Err? ==>
        && r.error == AttributeError
        && AllBasketsQuoted(depths)
        && (|HistoryOf(acc.memory, SpreadAKey)| + 1 >= ZWindow || |HistoryOf(acc.memory, SpreadDjembeKey)| + 1 >= ZWindow)
  {
    if AllBasketsQuoted(depths) && BasketStep(depths, acc, zStat).Err? {
      var a, b, d := SpreadA(depths), SpreadB(depths), SpreadDjembe(depths);
      var m := ExtendSpreads(acc.memory, a, b, d);
      var zA := ZScore(HistoryOf(m, SpreadAKey), zStat);
      var zPair := ZScore(HistoryOf(m, SpreadDjembeKey), zStat);
      var legs, pair := LegOrders(zA, depths), PairOrders(zPair, depths);
      assert legs + pair != [];
      if legs != [] {
        assert zA != 0.0;
        ZScoreNeedsWindow(acc.memory, a, b, d, SpreadAKey, zStat);
      } else {
        assert pair != [];
        assert zPair != 0.0;
        ZScoreNeedsWindow(acc.memory, a, b, d, SpreadDjembeKey, zStat);
      }
    }
  }

  /** A spread's z-score is 0 until its extended history fills the window. */
  lemma ZScoreNeedsWindow(memory: Memory, a: real, b: real, d: real, key: string, zStat: seq<real> -> real)
    requires key in {SpreadAKey, SpreadBKey, SpreadDjembeKey}
    ensures ZScore(HistoryOf(ExtendSpreads(memory, a, b, d), key), zStat) != 0.0 ==>
      |HistoryOf(memory, key)| + 1 >= ZWindow
  {
    ExtendSpreadsEffect(memory, a, b, d, key);
  }

  /** A loop that does not raise leaves each spread history as the window of
      the last 3000 values of the old history followed by one copy of this
      tick's spread per basket product. */
  lemma {:induction false} RunProductsSpreads(state: TradingState, products: seq<Symbol>, acc: Acc, mean: seq<real> -> real, zStat: seq<real> -> real, key: string)
    requires AllTwoSided(state.orderDepths)
    requires forall p :: p in products ==> p in state.orderDepths
    requires key in {SpreadAKey, SpreadBKey, SpreadDjembeKey}
    requires |HistoryOf(acc.memory, key)| <= SpreadCap
    ensures var r := RunProducts(state, products, acc, mean, zStat);
      var h := HistoryOf(acc.memory, key);
      r.Ok? ==>
        HistoryOf(r.value.memory, key) ==
          (if AllBasketsQuoted(state.orderDepths) then Window(h + Repeat(TickSpread(key, state.orderDepths), CountBaskets(products)), SpreadCap) else h)
    decreases |products|
  {
    var h := HistoryOf(acc.memory, key);
    if products == [] {
      if AllBasketsQuoted(state.orderDepths) {
        assert h + Repeat(TickSpread(key, state.orderDepths), 0) == h;
      }
    } else {
      var p := products[0];
      var s := Step(state, p, acc, mean, zStat);
      StepSpreadEffect(state, p, acc, mean, zStat, key);
      if s.Ok? {
        RunProductsStep(state, products, acc, mean, zStat);
        RunProductsSpreads(state, products[1..], s.value, mean, zStat, key);
        if AllBasketsQuoted(state.orderDepths) {
          SpreadStep(h, HistoryOf(s.value.memory, key), TickSpread(key, state.orderDepths), CountBaskets(products[1..]), p in BasketProducts);
        }
      }
    }
  }

  /** One pass of the loop in terms of the spread history alone: a basket
      pass appends x once more, any other pass leaves the history. */
  lemma SpreadStep(h: seq<real>, h': seq<real>, x: real, rest: nat, basket: bool)
    requires |h| <= SpreadCap
    requires h' == if basket then AppendThenDrop(h, x, SpreadCap) else h
    ensures Window(h' + Repeat(x, rest), SpreadCap) == Window(h + Repeat(x, rest + (if basket then 1 else 0)), SpreadCap)
  {
    if basket {
      AppendThenDropRepeat(h, x, rest, SpreadCap);
    }
  }

  /** A loop raises only in the basket block with every basket quoted, and
      only once a spread history plus the basket passes reach the z-score
      window. */
  lemma {:induction false} RunProductsRaises(state: TradingState, products: seq<Symbol>, acc: Acc, mean: seq<real> -> real, zStat: seq<real> -> real)
    requires AllTwoSided(state.orderDepths)
    requires forall p :: p in products ==> p in state.orderDepths
    ensures var r := RunProducts(state, products, acc, mean, zStat);
      r.Err? ==>
        && r.error == AttributeError
        && AllBasketsQuoted(state.orderDepths)
        && (|HistoryOf(acc.memory, SpreadAKey)| + CountBaskets(products) >= ZWindow
            || |HistoryOf(acc.memory, SpreadDjembeKey)| + CountBaskets(products) >= ZWindow)
    decreases |products|
  {
    if products != [] {
      var p := products[0];
      var s := Step(state, p, acc, mean, zStat);
      if s.Err? {
        if p in BasketProducts && p != SQUID_INK && p != RAINFOREST_RESIN {
          BasketStepRaises(state.orderDepths, acc, zStat);
        }
      } else {
        assert RunProducts(state, products, acc, mean, zStat) == RunProducts(state, products[1..], s.value, mean, zStat);
        RunProductsRaises(state, products[1..], s.value, mean, zStat);
        StepSpreadEffect(state, p, acc, mean, zStat, SpreadAKey);
        StepSpreadEffect(state, p, acc, mean, zStat, SpreadDjembeKey);
      }
    }
  }

  // ---------------------------------------------------------------------
  // One tick

  /** The memory a tick starts from, when its traderData decodes. */
  function StartMemory(state: TradingState): Memory
    requires state.traderData != Sample
  {
    DecodeMemory(state.traderData).value
  }

  /** A tick that does not raise files exactly the reference orders, so
      only RAINFOREST_RESIN and SQUID_INK, and updates the SQUID_INK history
      once when SQUID_INK has a book. */
  lemma RunFiles(state: TradingState, mean: seq<real> -> real, zStat: seq<real> -> real)
    requires AllTwoSided(state.orderDepths)
    requires ListsKeysOnce(state.products, state.orderDepths.Keys)
    ensures var out := Run(state, mean, zStat);
      out.Ok? ==>
        && state.traderData != Sample
        && out.value.orders == FiledOrders(state, state.products, HistoryOf(StartMemory(state), SQUID_INK), mean)
        && out.value.orders.Keys <= {RAINFOREST_RESIN, SQUID_INK}
        && HistoryOf(out.value.traderData.memory, SQUID_INK) ==
             (if SQUID_INK in state.orderDepths
              then DropThenAppend(HistoryOf(StartMemory(state), SQUID_INK), Mid(state.orderDepths[SQUID_INK]), SquidHistoryLimit)
              else HistoryOf(StartMemory(state), SQUID_INK))
  {
    if state.traderData != Sample {
      var acc := Acc(map[], StartMemory(state));
      RunProductsFiles(state, state.products, acc, mean, zStat);
      RunProductsSquidHistory(state, state.products, acc, mean, zStat);
      FiledOnlyResinAndSquid(state, state.products, HistoryOf(StartMemory(state), SQUID_INK), mean);
      assert map[] + FiledOrders(state, state.products, HistoryOf(StartMemory(state), SQUID_INK), mean)
        == FiledOrders(state, state.products, HistoryOf(StartMemory(state), SQUID_INK), mean);
    }
  }

  /** With every basket quoted, a tick that does not raise appends this
      tick's spread five times to each spread history (once per basket
      product in the loop), keeping the last 3000 values. Otherwise the
      spread histories are left alone. */
  lemma RunSpreads(state: TradingState, mean: seq<real> -> real, zStat: seq<real> -> real, key: string)
    requires AllTwoSided(state.orderDepths)
    requires ListsKeysOnce(state.products, state.orderDepths.Keys)
    requires key in {SpreadAKey, SpreadBKey, SpreadDjembeKey}
    requires state.traderData.Pickled? ==> |HistoryOf(state.traderData.memory, key)| <= SpreadCap
    ensures var out := Run(state, mean, zStat);
      out.Ok? ==>
        && state.traderData != Sample
        && (AllBasketsQuoted(state.orderDepths) ==>
              HistoryOf(out.value.traderData.memory, key) == Window(HistoryOf(StartMemory(state), key) + Repeat(TickSpread(key, state.orderDepths), 5), SpreadCap))
        && (!AllBasketsQuoted(state.orderDepths) ==>
              HistoryOf(out.value.traderData.memory, key) == HistoryOf(StartMemory(state), key))
  {
    if state.traderData != Sample {
      var acc := Acc(map[], StartMemory(state));
      RunProductsSpreads(state, state.products, acc, mean, zStat, key);
      if AllBasketsQuoted(state.orderDepths) {
        CountAllBaskets(state.products, state.orderDepths);
      }
    }
  }

  /** A tick raises only on the "SAMPLE" traderData, or in the basket block
      with every basket quoted once "spread_A" or "spread_djembe" holds at
      least 2995 values. */
  lemma RunRaises(state: TradingState, mean: seq<real> -> real, zStat: seq<real> -> real)
    requires AllTwoSided(state.orderDepths)
    requires ListsKeysOnce(state.products, state.orderDepths.Keys)
    ensures var out := Run(state, mean, zStat);
      out.Err? ==>
        || (state.traderData == Sample && out.error == DecodeError)
        || (&& state.traderData != Sample
            && out.error == AttributeError
            && AllBasketsQuoted(state.orderDepths)
            && (|HistoryOf(StartMemory(state), SpreadAKey)| + 5 >= ZWindow || |HistoryOf(StartMemory(state), SpreadDjembeKey)| + 5 >= ZWindow))
  {
    if state.traderData != Sample {
      var acc := Acc(map[], StartMemory(state));
      RunProductsRaises(state, state.products, acc, mean, zStat);
      if AllBasketsQuoted(state.orderDepths) {
        CountAllBaskets(state.products, state.orderDepths);
      }
    }
  }
}

=== FILE: squid_ink_iris.dfy ===
/** `Trader.run` of squid_ink_iris.py: a period strategy for SQUID_INK keyed
    on `timestamp % 3300`. At phase 800 it may enter a position on the trend
    of the rolling means, at phase 900 it records its last own trade, and at
    phase 0 it builds orders that unwind that trade. Every tick it appends
    the mid price to a rolling history of at most 67 prices. No other
    product is traded.

    The linear-regression slope that `generate_correlation` computes from
    the history is an abstract input; only its length guard is modelled. */
module SquidInkIris {
  import opened Wrappers
  import opened DataModel
  import opened TopOfBook
  import opened History
  import opened Numbers

  /** `period_w_allowance = 33 * 100` */
  const PeriodWithAllowance: int := 3300
  const RollingPeriod: int := 30
  const TrendEvalLength: int := 8
  /** `len(history) > period_w_allowance / 100` gates entry and recording. */
  const MinHistory: int := 33
  /** `len(history) > 2 * (period_w_allowance / 100)` drops the oldest price. */
  const HistoryLimit: nat := 66
  const EntryPhase: int := 800
  const RecordPhase: int := 900
  const UnwindPhase: int := 0
  /** `20 / (period_w_allowance / 100) / 2` */
  const PresumedMaxGradient: real := 20.0 / 33.0 / 2.0

  /** `timestamp % 3300`. Python's `%` with a positive divisor is never
      negative, exactly like Dafny's Euclidean `%`. */
  function Phase(timestamp: int): (ph: int)
    ensures 0 <= ph < PeriodWithAllowance
    ensures (timestamp - ph) % PeriodWithAllowance == 0
  {
    timestamp % PeriodWithAllowance
  }

  /** `generate_correlation(history, rolling_period, eval_length)`: 0.0 until
      the history holds rolling_period + eval_length prices; afterwards the
      regression slope, given here as `slope`. */
  function GenerateCorrelation(history: seq<real>, rollingPeriod: int, evalLength: int, slope: real): (g: real)
    ensures |history| < rollingPeriod + evalLength ==> g == 0.0
    ensures |history| >= rollingPeriod + evalLength ==> g == slope
  {
    if |history| < rollingPeriod + evalLength then 0.0 else slope
  }

  /** `corr = gradient / presumed_max_gradient`: the gradient in units of
      the steepest gradient the strategy expects, 20 over a 33-price period,
      halved; a score of 1 is that gradient. */
  function TrendScore(gradient: real): (score: real)
    ensures score * PresumedMaxGradient == gradient
    ensures score >= 0.3 <==> gradient >= 0.3 * PresumedMaxGradient
    ensures score <= -0.3 <==> gradient <= -0.3 * PresumedMaxGradient
  {
    gradient / PresumedMaxGradient
  }

  /** The entry ladder. A rising trend (score at least 0.3) buys at one tick
      above the best ask: 8 units when the score is at least 0.6 and the
      position at most 25, else 2 units when the position is at most 40. A
      falling trend (score at most -0.3) sells 8 units at one tick above the
      best bid when the position is at least -40; both tiers of the sell
      ladder sell 8. */
  function EntryOrders(corr: real, position: int, book: OrderDepth): (orders: seq<Order>)
    requires TwoSided(book)
    ensures |orders| <= 1
    ensures forall o :: o in orders ==> o.symbol == SQUID_INK
    ensures |orders| == 1 <==> (corr >= 0.3 && position <= 40) || (corr <= -0.3 && position >= -40)
    ensures (|orders| == 1 && orders[0].quantity > 0.0) <==> corr >= 0.3 && position <= 40
    ensures (|orders| == 1 && orders[0].quantity < 0.0) <==> corr <= -0.3 && position >= -40
    ensures |orders| == 1 && orders[0].quantity > 0.0 ==>
      && orders[0].price == (BestAsk(book) + 1) as real
      && (orders[0].quantity == 8.0 <==> corr >= 0.6 && position <= 25)
      && (orders[0].quantity == 8.0 || orders[0].quantity == 2.0)
    ensures |orders| == 1 && orders[0].quantity < 0.0 ==>
      orders[0].price == (BestBid(book) + 1) as real && orders[0].quantity == -8.0
  {
    var buys :=
      if corr >= 0.3 then
        if corr >= 0.6 && position <= 25 then [Order(SQUID_INK, (BestAsk(book) + 1) as real, 8.0)]
        else if corr >= 0.3 && position <= 40 then [Order(SQUID_INK, (BestAsk(book) + 1) as real, 2.0)]
        else []
      else [];
    var sells :=
      if corr <= -0.3 then
        if corr <= -0.6 && position >= -25 then [Order(SQUID_INK, (BestBid(book) + 1) as real, -8.0)]
        else if corr <= -0.3 && position >= -40 then [Order(SQUID_INK, (BestBid(book) + 1) as real, -8.0)]
        else []
      else [];
    buys + sells
  }

  /** The record phase: `state.own_trades[product][-1]`. A missing product
      key raises KeyError, which is caught and stores `{}`; an empty trade
      list raises IndexError, which is not caught. */
  function RecordTrade(ownTrades: map<Symbol, seq<Trade>>): (r: Result<DemolishRecord, Error>)
    ensures r.Err? <==> SQUID_INK in ownTrades && ownTrades[SQUID_INK] == []
    ensures r.Err? ==> r.error == IndexError
    ensures r == Ok(NoTrade) <==> SQUID_INK !in ownTrades
    ensures r.Ok? && r.value.Pending? ==>
      && |ownTrades[SQUID_INK]| > 0
      && r.value.trade == ownTrades[SQUID_INK][|ownTrades[SQUID_INK]| - 1]
      && r.value.remainingQuantity == r.value.trade.quantity
  {
    if SQUID_INK !in ownTrades then
      Ok(NoTrade)
    else if |ownTrades[SQUID_INK]| == 0 then
      Err(IndexError)
    else
      var last := ownTrades[SQUID_INK][|ownTrades[SQUID_INK]| - 1];
      Ok(Pending(last, last.quantity))
  }

  /** The unwind phase: trade against the recorded trade. A remaining bought
      quantity q > 0 is sold at the best ask, all of it when the mid price is
      at least the trade price and `int(q / 2)` otherwise; a remaining sold
      quantity is bought back at the best bid the same way. */
  function UnwindOrders(record: Option<DemolishRecord>, book: OrderDepth): (orders: seq<Order>)
    requires TwoSided(book)
    ensures |orders| <= 1
    ensures forall o :: o in orders ==> o.symbol == SQUID_INK
    ensures |orders| == 1 <==> record.Some? && record.value.Pending? && record.value.remainingQuantity != 0
    ensures |orders| == 1 && record.value.remainingQuantity > 0 ==>
      && orders[0].price == BestAsk(book) as real
      && -record.value.remainingQuantity as real <= orders[0].quantity <= 0.0
      && (orders[0].quantity == -record.value.remainingQuantity as real <==> DoubledMid(book) >= 2 * record.value.trade.price)
      && (DoubledMid(book) < 2 * record.value.trade.price ==> orders[0].quantity == -TruncHalf(record.value.remainingQuantity) as real)
    ensures |orders| == 1 && record.value.remainingQuantity < 0 ==>
      && orders[0].price == BestBid(book) as real
      && 0.0 <= orders[0].quantity <= -record.value.remainingQuantity as real
      && (orders[0].quantity == -record.value.remainingQuantity as real <==> DoubledMid(book) <= 2 * record.value.trade.price)
      && (DoubledMid(book) > 2 * record.value.trade.price ==> orders[0].quantity == TruncHalf(-record.value.remainingQuantity) as real)
  {
    match record
    case Some(Pending(trade, quantity)) =>
      if quantity > 0 then
        var askVol := if DoubledMid(book) >= 2 * trade.price then quantity else TruncHalf(quantity);
        [Order(SQUID_INK, BestAsk(book) as real, -askVol as real)]
      else if quantity < 0 then
        var bidVol := if DoubledMid(book) <= 2 * trade.price then -quantity else TruncHalf(-quantity);
        [Order(SQUID_INK, BestBid(book) as real, bidVol as real)]
      else
        []
    case _ => []
  }

  /** The record phase applied to `data` when it is due: store the recorded
      trade, or fail with the error RecordTrade raises. */
  function RecordIfDue(state: TradingState, memory: Memory, longEnough: bool): (r: Result<Memory, Error>)
    ensures r.Err? <==> longEnough && Phase(state.timestamp) == RecordPhase && RecordTrade(state.ownTrades).Err?
    ensures r.Ok? ==> r.value.histories == memory.histories
    ensures r.Ok? && !(longEnough && Phase(state.timestamp) == RecordPhase) ==> r.value == memory
    ensures r.Ok? && longEnough && Phase(state.timestamp) == RecordPhase ==>
      && r.value.tradeToDemolish.Some?
      && (r.value.tradeToDemolish.value == NoTrade <==> SQUID_INK !in state.ownTrades)
      && (r.value.tradeToDemolish.value.Pending? ==>
            r.value.tradeToDemolish.value.trade == state.ownTrades[SQUID_INK][|state.ownTrades[SQUID_INK]| - 1])
      && r.value.tradeToDemolish == Some(RecordTrade(state.ownTrades).value)
  {
    if longEnough && Phase(state.timestamp) == RecordPhase then
      var record :- RecordTrade(state.ownTrades);
      Ok(memory.(tradeToDemolish := Some(record)))
    else Ok(memory)
  }

  /** What the SQUID_INK branch computes in one tick: the entry orders it
      stores in `result` (None when the entry phase is not reached), the
      unwind orders it builds, and the updated `data`. */
  datatype SquidTickResult = SquidTickResult(entry: Option<seq<Order>>, unwind: seq<Order>, memory: Memory)

  /** The SQUID_INK branch of the loop body. */
  function SquidTick(state: TradingState, memory: Memory, slope: real): (r: Result<SquidTickResult, Error>)
    requires SQUID_INK in state.orderDepths && TwoSided(state.orderDepths[SQUID_INK])
    ensures r.Ok? ==> (r.value.entry.Some? <==> |HistoryOf(memory, SQUID_INK)| > MinHistory && Phase(state.timestamp) == EntryPhase)
    ensures r.Ok? ==> (r.value.unwind != [] ==> Phase(state.timestamp) == UnwindPhase)
    ensures r.Ok? ==> HistoryOf(r.value.memory, SQUID_INK) == DropThenAppend(HistoryOf(memory, SQUID_INK), Mid(state.orderDepths[SQUID_INK]), HistoryLimit)
    ensures r.Err? <==> |HistoryOf(memory, SQUID_INK)| > MinHistory && Phase(state.timestamp) == RecordPhase && RecordTrade(state.ownTrades).Err?
    ensures r.Ok? && r.value.entry.Some? ==>
      r.value.entry.value == EntryOrders(
        TrendScore(GenerateCorrelation(HistoryOf(memory, SQUID_INK), RollingPeriod, TrendEvalLength, slope)),
        PositionOf(state, SQUID_INK), state.orderDepths[SQUID_INK])
    ensures r.Ok? ==>
      r.value.memory.tradeToDemolish ==
        if |HistoryOf(memory, SQUID_INK)| > MinHistory && Phase(state.timestamp) == RecordPhase
        then Some(RecordTrade(state.ownTrades).value)
        else memory.tradeToDemolish
    ensures r.Ok? && Phase(state.timestamp) == UnwindPhase ==>
      r.value.unwind == UnwindOrders(memory.tradeToDemolish, state.orderDepths[SQUID_INK])
    ensures r.Ok? ==> r.value.memory.histories.Keys == memory.histories.Keys + {SQUID_INK}
    ensures r.Ok? ==> forall k :: k in memory.histories && k != SQUID_INK ==> r.value.memory.histories[k] == memory.histories[k]
  {
    var book := state.orderDepths[SQUID_INK];
    var position := PositionOf(state, SQUID_INK);
    var history := HistoryOf(memory, SQUID_INK);
    var phase := Phase(state.timestamp);
    var longEnough := |history| > MinHistory;
    var entry :=
      if longEnough && phase == EntryPhase then
        var gradient := GenerateCorrelation(history, RollingPeriod, TrendEvalLength, slope);
        Some(EntryOrders(TrendScore(gradient), position, book))
      else None;
    var m :- RecordIfDue(state, memory, longEnough);
    var unwind := if phase == UnwindPhase then UnwindOrders(m.tradeToDemolish, book) else [];
    var history' := DropThenAppend(history, Mid(book), HistoryLimit);
    Ok(SquidTickResult(entry, unwind, m.(histories := m.histories[SQUID_INK := history'])))
  }

  /** `jsonpickle.decode(state.traderData) if state.traderData and
      state.traderData != "SAMPLE" else {}` */
  function DecodeMemory(traderData: TraderData): (m: Memory)
    ensures traderData.Pickled? ==> m == traderData.memory
    ensures !traderData.Pickled? ==> m == EmptyMemory
  {
    if traderData.Pickled? then traderData.memory else EmptyMemory
  }

  /** One tick. Only the entry phase stores SQUID_INK orders in `result`;
      the unwind orders are built and then dropped. */
  function Run(state: TradingState, slope: real): (out: Result<TickOutput, Error>)
    requires AllTwoSided(state.orderDepths)
    ensures out.Ok? ==> out.value.conversions == 1 && out.value.traderData.Pickled?
    ensures out.Ok? ==> out.value.orders.Keys <= {SQUID_INK}
    ensures out.Ok? ==> (SQUID_INK in out.value.orders <==>
      SQUID_INK in state.orderDepths && |HistoryOf(DecodeMemory(state.traderData), SQUID_INK)| > MinHistory && Phase(state.timestamp) == EntryPhase)
    ensures out.Ok? ==> forall p :: p in out.value.orders ==> |out.value.orders[p]| <= 1
    ensures out.Ok? && SQUID_INK in out.value.orders ==>
      out.value.orders[SQUID_INK] == EntryOrders(
        TrendScore(GenerateCorrelation(HistoryOf(DecodeMemory(state.traderData), SQUID_INK), RollingPeriod, TrendEvalLength, slope)),
        PositionOf(state, SQUID_INK), state.orderDepths[SQUID_INK])
    ensures out.Err? ==> out.error == IndexError && Phase(state.timestamp) == RecordPhase
    ensures out.Ok? ==> var before := DecodeMemory(state.traderData).histories;
      var after := out.value.traderData.memory.histories;
      && before.Keys <= after.Keys <= before.Keys + {SQUID_INK}
      && forall k :: k in before && k != SQUID_INK ==> after[k] == before[k]
    ensures out.Ok? && SQUID_INK in state.orderDepths && |HistoryOf(DecodeMemory(state.traderData), SQUID_INK)| > MinHistory && Phase(state.timestamp) == RecordPhase ==>
      && RecordTrade(state.ownTrades).Ok?
      && out.value.traderData.memory.tradeToDemolish == Some(RecordTrade(state.ownTrades).value)
    ensures out.Ok? && !(SQUID_INK in state.orderDepths && |HistoryOf(DecodeMemory(state.traderData), SQUID_INK)| > MinHistory && Phase(state.timestamp) == RecordPhase) ==>
      out.value.traderData.memory.tradeToDemolish == DecodeMemory(state.traderData).tradeToDemolish
  {
    var memory := DecodeMemory(state.traderData);
    if SQUID_INK in state.orderDepths then
      match SquidTick(state, memory, slope)
      case Err(e) => Err(e)
      case Ok(tick) =>
        var result := if tick.entry.Some? then map[SQUID_INK := tick.entry.value] else map[];
        Ok(TickOutput(result, 1, Pickled(tick.memory)))
    else
      Ok(TickOutput(map[], 1, Pickled(memory)))
  }

  /** The unwind orders are never returned: at phase 0 the result is empty
      even when a recorded trade leaves a non-zero quantity to unwind and
      the tick builds an order for it. */
  lemma UnwindOrdersAreDropped(state: TradingState, slope: real)
    requires AllTwoSided(state.orderDepths)
    requires SQUID_INK in state.orderDepths
    requires Phase(state.timestamp) == UnwindPhase
    ensures Run(state, slope).Ok?
    ensures Run(state, slope).value.orders == map[]
    ensures SquidTick(state, DecodeMemory(state.traderData), slope).Ok?
    ensures var m := DecodeMemory(state.traderData);
      m.tradeToDemolish.Some? && m.tradeToDemolish.value.Pending? && m.tradeToDemolish.value.remainingQuantity != 0 ==>
        |SquidTick(state, m, slope).value.unwind| == 1
  {
  }

  /** The record phase raises IndexError exactly when the trader's own
      SQUID_INK trade list is present but empty. */
  lemma RecordPhaseError(state: TradingState, slope: real)
    requires AllTwoSided(state.orderDepths)
    requires SQUID_INK in state.orderDepths
    requires |HistoryOf(DecodeMemory(state.traderData), SQUID_INK)| > MinHistory
    requires Phase(state.timestamp) == RecordPhase
    ensures Run(state, slope).Err? <==> SQUID_INK in state.ownTrades && state.ownTrades[SQUID_INK] == []
  {
  }

  /** The trade recorded at phase 900 is the one unwound at the next phase
      0: the tick that follows, handed the recording tick's traderData,
      builds the unwind order for the whole quantity of the last own
      SQUID_INK trade, and none when no trade was recorded. */
  lemma RecordThenUnwind(recording: TradingState, next: TradingState, slope: real, slope': real)
    requires AllTwoSided(recording.orderDepths) && QuotesSquid(recording)
    requires AllTwoSided(next.orderDepths) && QuotesSquid(next)
    requires |HistoryOf(DecodeMemory(recording.traderData), SQUID_INK)| > MinHistory
    requires Phase(recording.timestamp) == RecordPhase && Phase(next.timestamp) == UnwindPhase
    requires Run(recording, slope).Ok? && next.traderData == Run(recording, slope).value.traderData
    ensures SquidTick(next, DecodeMemory(next.traderData), slope').Ok?
    ensures var unwind := SquidTick(next, DecodeMemory(next.traderData), slope').value.unwind;
      && unwind == UnwindOrders(Some(RecordTrade(recording.ownTrades).value), next.orderDepths[SQUID_INK])
      && (SQUID_INK in recording.ownTrades ==>
            var last := recording.ownTrades[SQUID_INK][|recording.ownTrades[SQUID_INK]| - 1];
            && unwind == UnwindOrders(Some(Pending(last, last.quantity)), next.orderDepths[SQUID_INK])
            && (last.quantity != 0 <==> |unwind| == 1))
      && (SQUID_INK !in recording.ownTrades ==> unwind == [])
  {
  }

  /** The state quotes SQUID_INK on both sides. */
  predicate QuotesSquid(state: TradingState) {
    SQUID_INK in state.orderDepths && TwoSided(state.orderDepths[SQUID_INK])
  }

  /** The SQUID_INK mid prices of successive ticks. */
  function SquidMids(states: seq<TradingState>): (mids: seq<real>)
    requires forall i :: 0 <= i < |states| ==> QuotesSquid(states[i])
    ensures |mids| == |states|
  {
    if states == [] then []
    else
      assert QuotesSquid(states[0]);
      [Mid(states[0].orderDepths[SQUID_INK])] + SquidMids(states[1..])
  }

  /** Successive ticks, each handed the traderData the previous tick
      returned (the first is handed `traderData`), with the regression
      slope of each tick. The final traderData, or the first error. */
  function RunTicks(states: seq<TradingState>, slopes: seq<real>, traderData: TraderData): Result<TraderData, Error>
    requires |slopes| == |states|
    requires forall i :: 0 <= i < |states| ==> AllTwoSided(states[i].orderDepths)
    decreases |states|
  {
    if states == [] then Ok(traderData)
    else
      var state := states[0].(traderData := traderData);
      assert AllTwoSided(states[0].orderDepths);
      assert AllTwoSided(state.orderDepths);
      match Run(state, slopes[0])
      case Err(e) => Err(e)
      case Ok(out) => RunTicks(states[1..], slopes[1..], out.traderData)
  }

  /** Ticks outside the record phase hand the stored trade on unchanged. */
  lemma {:induction false} TicksKeepTrade(states: seq<TradingState>, slopes: seq<real>, traderData: TraderData)
    requires |slopes| == |states|
    requires forall i :: 0 <= i < |states| ==> AllTwoSided(states[i].orderDepths) && Phase(states[i].timestamp) != RecordPhase
    ensures RunTicks(states, slopes, traderData).Ok? ==>
      DecodeMemory(RunTicks(states, slopes, traderData).value).tradeToDemolish == DecodeMemory(traderData).tradeToDemolish
    decreases |states|
  {
    if states != [] {
      var state := states[0].(traderData := traderData);
      assert AllTwoSided(state.orderDepths) && Phase(state.timestamp) != RecordPhase by {
        assert AllTwoSided(states[0].orderDepths) && Phase(states[0].timestamp) != RecordPhase;
      }
      var first := Run(state, slopes[0]);
      assert first.Ok?;
      assert RunTicks(states, slopes, traderData) == RunTicks(states[1..], slopes[1..], first.value.traderData);
      TicksKeepTrade(states[1..], slopes[1..], first.value.traderData);
    }
  }

  /** The trade recorded at phase 900 is the one unwound at the next phase
      0, however many ticks come between: as long as none of them is in the
      record phase, the unwind tick builds the order for the whole quantity
      of the recording tick's last own SQUID_INK trade. */
  lemma RecordThenUnwindAcross(recording: TradingState, between: seq<TradingState>, slopes: seq<real>, next: TradingState, slope: real, slope': real)
    requires AllTwoSided(recording.orderDepths) && QuotesSquid(recording)
    requires AllTwoSided(next.orderDepths) && QuotesSquid(next)
    requires |slopes| == |between|
    requires forall i :: 0 <= i < |between| ==> AllTwoSided(between[i].orderDepths) && Phase(between[i].timestamp) != RecordPhase
    requires |HistoryOf(DecodeMemory(recording.traderData), SQUID_INK)| > MinHistory
    requires Phase(recording.timestamp) == RecordPhase && Phase(next.timestamp) == UnwindPhase
    requires Run(recording, slope).Ok?
    requires RunTicks(between, slopes, Run(recording, slope).value.traderData).Ok?
    requires next.traderData == RunTicks(between, slopes, Run(recording, slope).value.traderData).value
    ensures SquidTick(next, DecodeMemory(next.traderData), slope').Ok?
    ensures var unwind := SquidTick(next, DecodeMemory(next.traderData), slope').value.unwind;
      && unwind == UnwindOrders(Some(RecordTrade(recording.ownTrades).value), next.orderDepths[SQUID_INK])
      && (SQUID_INK in recording.ownTrades ==>
            var last := recording.ownTrades[SQUID_INK][|recording.ownTrades[SQUID_INK]| - 1];
            && unwind == UnwindOrders(Some(Pending(last, last.quantity)), next.orderDepths[SQUID_INK])
            && (last.quantity != 0 <==> |unwind| == 1))
      && (SQUID_INK !in recording.ownTrades ==> unwind == [])
  {
    var recorded := Run(recording, slope).value.traderData;
    TicksKeepTrade(between, slopes, recorded);
    assert DecodeMemory(next.traderData).tradeToDemolish == Some(RecordTrade(recording.ownTrades).value);
  }

  /** Handing a tick blank traderData, or "SAMPLE", is handing it the
      empty dictionary. */
  lemma RunTicksFromBlank(states: seq<TradingState>, slopes: seq<real>, traderData: TraderData)
    requires |slopes| == |states| && states != []
    requires forall i :: 0 <= i < |states| ==> AllTwoSided(states[i].orderDepths)
    requires !traderData.Pickled?
    ensures RunTicks(states, slopes, traderData) == RunTicks(states, slopes, Pickled(EmptyMemory))
  {
    assert states[0].(traderData := traderData).(traderData := Pickled(EmptyMemory))
      == states[0].(traderData := Pickled(EmptyMemory));
  }

  /** From the first tick of a run, handed blank traderData or "SAMPLE", the
      history handed on is the window of the most recent 67 mid prices. */
  lemma HistoryFromStartIsWindowOfMids(states: seq<TradingState>, slopes: seq<real>, traderData: TraderData)
    requires |slopes| == |states| && states != []
    requires forall i :: 0 <= i < |states| ==> AllTwoSided(states[i].orderDepths) && QuotesSquid(states[i])
    requires !traderData.Pickled?
    ensures RunTicks(states, slopes, traderData).Ok? ==>
      && RunTicks(states, slopes, traderData).value.Pickled?
      && HistoryOf(RunTicks(states, slopes, traderData).value.memory, SQUID_INK) == Window(SquidMids(states), HistoryLimit + 1)
  {
    RunTicksFromBlank(states, slopes, traderData);
    HistoryIsWindowOfMids(states, slopes, EmptyMemory);
    assert HistoryOf(EmptyMemory, SQUID_INK) + SquidMids(states) == SquidMids(states);
  }

  /** One tick hands on, through traderData, the history updated with
      this tick's mid price. */
  lemma TickUpdatesHistory(state: TradingState, slope: real, memory: Memory)
    requires AllTwoSided(state.orderDepths) && QuotesSquid(state)
    requires state.traderData == Pickled(memory)
    ensures Run(state, slope).Ok? ==>
      && Run(state, slope).value.traderData.Pickled?
      && HistoryOf(Run(state, slope).value.traderData.memory, SQUID_INK)
         == DropThenAppend(HistoryOf(memory, SQUID_INK), Mid(state.orderDepths[SQUID_INK]), HistoryLimit)
      && (forall k :: k != SQUID_INK ==> HistoryOf(Run(state, slope).value.traderData.memory, k) == HistoryOf(memory, k))
  {
  }

  /** Across any run of ticks that all quote SQUID_INK, the history handed
      from tick to tick through traderData is the window of the most recent
      67 mid prices. */
  lemma {:induction false} HistoryIsWindowOfMids(states: seq<TradingState>, slopes: seq<real>, memory: Memory)
    requires |slopes| == |states|
    requires forall i :: 0 <= i < |states| ==> AllTwoSided(states[i].orderDepths) && QuotesSquid(states[i])
    requires |HistoryOf(memory, SQUID_INK)| <= HistoryLimit + 1
    ensures RunTicks(states, slopes, Pickled(memory)).Ok? ==>
      && RunTicks(states, slopes, Pickled(memory)).value.Pickled?
      && HistoryOf(RunTicks(states, slopes, Pickled(memory)).value.memory, SQUID_INK)
         == Window(HistoryOf(memory, SQUID_INK) + SquidMids(states), HistoryLimit + 1)
    decreases |states|, 1
  {
    if states == [] {
      assert HistoryOf(memory, SQUID_INK) + SquidMids(states) == HistoryOf(memory, SQUID_INK);
    } else {
      HistoryIsWindowOfMidsStep(states, slopes, memory);
    }
  }

  /** The inductive step of HistoryIsWindowOfMids: the first tick slides
      its mid price into the history, and the later ticks do the rest. */
  lemma {:induction false} HistoryIsWindowOfMidsStep(states: seq<TradingState>, slopes: seq<real>, memory: Memory)
    requires |slopes| == |states| && states != []
    requires forall i :: 0 <= i < |states| ==> AllTwoSided(states[i].orderDepths) && QuotesSquid(states[i])
    requires |HistoryOf(memory, SQUID_INK)| <= HistoryLimit + 1
    ensures RunTicks(states, slopes, Pickled(memory)).Ok? ==>
      && RunTicks(states, slopes, Pickled(memory)).value.Pickled?
      && HistoryOf(RunTicks(states, slopes, Pickled(memory)).value.memory, SQUID_INK)
         == Window(HistoryOf(memory, SQUID_INK) + SquidMids(states), HistoryLimit + 1)
    decreases |states|, 0
  {
    var h := HistoryOf(memory, SQUID_INK);
    var s0 := states[0].(traderData := Pickled(memory));
    assert AllTwoSided(s0.orderDepths) && QuotesSquid(s0) by {
      assert AllTwoSided(states[0].orderDepths) && QuotesSquid(states[0]);
    }
    var first := Run(s0, slopes[0]);
    assert RunTicks(states, slopes, Pickled(memory))
      == if first.Ok? then RunTicks(states[1..], slopes[1..], first.value.traderData) else Err(first.error);
    if first.Ok? {
      var x := Mid(states[0].orderDepths[SQUID_INK]);
      TickUpdatesHistory(s0, slopes[0], memory);
      var m' := first.value.traderData.memory;
      assert HistoryOf(m', SQUID_INK) == DropThenAppend(h, x, HistoryLimit);
      HistoryIsWindowOfMids(states[1..], slopes[1..], m');
      MidsSlide(states, h, x);
    }
  }

  /** The window after the first tick's update with x, extended by the
      later ticks' mids, is the window over all the ticks' mids. */
  lemma MidsSlide(states: seq<TradingState>, h: seq<real>, x: real)
    requires states != [] && |h| <= HistoryLimit + 1
    requires forall i :: 0 <= i < |states| ==> QuotesSquid(states[i])
    requires QuotesSquid(states[0]) && x == Mid(states[0].orderDepths[SQUID_INK])
    ensures forall i :: 0 <= i < |states[1..]| ==> QuotesSquid(states[1..][i])
    ensures Window(DropThenAppend(h, x, HistoryLimit) + SquidMids(states[1..]), HistoryLimit + 1)
         == Window(h + SquidMids(states), HistoryLimit + 1)
  {
    assert SquidMids(states) == [x] + SquidMids(states[1..]);
    SlideStep(h, x, SquidMids(states[1..]), HistoryLimit);
  }


}

=== FILE: topofbook.dfy ===
/** Reading the top of an order book: the best (lowest) ask, the best
    (highest) bid and the mid price between them. */
module TopOfBook {
  import opened DataModel

  /** Both sides of the book have at least one price level. */
  predicate TwoSided(d: OrderDepth) {
    |d.buyOrders| > 0 && |d.sellOrders| > 0
  }

  /** Every book of a state has both sides. The traders compute the best
      prices of every product in their loop, and a product whose book side is
      empty would reuse the previous product's price or raise NameError; the
      models of those loops assume this does not happen. */
  predicate AllTwoSided(depths: map<Symbol, OrderDepth>) {
    forall p :: p in depths ==> TwoSided(depths[p])
  }

  lemma {:induction false} ExtremesExist(s: set<int>)
    requires s != {}
    ensures exists m :: m in s && forall x :: x in s ==> m <= x
    ensures exists m :: m in s && forall x :: x in s ==> x <= m
    decreases |s|
  {
    if forall x :: x !in s {
      assert false;
    }
    var y :| y in s;
    if forall x :: x in s ==> x == y {
      assert y in s && forall x :: x in s ==> y <= x;
      assert y in s && forall x :: x in s ==> x <= y;
    } else {
      var z :| z in s && z != y;
      var rest := s - {y};
      assert z in rest;
      ExtremesExist(rest);
      var lo :| lo in rest && forall x :: x in rest ==> lo <= x;
      var hi :| hi in rest && forall x :: x in rest ==> x <= hi;
      var lo' := if y < lo then y else lo;
      var hi' := if y > hi then y else hi;
      assert forall x :: x in s ==> x == y || x in rest;
      assert lo' in s && forall x :: x in s ==> lo' <= x;
      assert hi' in s && forall x :: x in s ==> x <= hi';
    }
  }

  /** Python `min(keys)` on a non-empty set of keys. */
  function MinOf(s: set<int>): (m: int)
    requires s != {}
    ensures m in s && forall x :: x in s ==> m <= x
  {
    ExtremesExist(s);
    var m :| m in s && forall x :: x in s ==> m <= x;
    m
  }

  /** Python `max(keys)` on a non-empty set of keys. */
  function MaxOf(s: set<int>): (m: int)
    requires s != {}
    ensures m in s && forall x :: x in s ==> x <= m
  {
    ExtremesExist(s);
    var m :| m in s && forall x :: x in s ==> x <= m;
    m
  }

  /** `min(order_depth.sell_orders.keys())` */
  function BestAsk(d: OrderDepth): (a: int)
    requires |d.sellOrders| > 0
    ensures a in d.sellOrders
    ensures forall p :: p in d.sellOrders ==> a <= p
  {
    MinOf(d.sellOrders.Keys)
  }

  /** `max(order_depth.buy_orders.keys())` */
  function BestBid(d: OrderDepth): (b: int)
    requires |d.buyOrders| > 0
    ensures b in d.buyOrders
    ensures forall p :: p in d.buyOrders ==> p <= b
  {
    MaxOf(d.buyOrders.Keys)
  }

  /** Twice the mid price, `best_ask + best_bid`: comparing it with twice a
      threshold decides the same comparisons as the float mid price without
      leaving the integers. */
  function DoubledMid(d: OrderDepth): int
    requires TwoSided(d)
  {
    BestAsk(d) + BestBid(d)
  }

  /** `(best_ask + best_bid) / 2` as an exact real. */
  function Mid(d: OrderDepth): (m: real)
    requires TwoSided(d)
    ensures 2.0 * m == DoubledMid(d) as real
    ensures BestBid(d) <= BestAsk(d) ==> BestBid(d) as real <= m <= BestAsk(d) as real
  {
    (BestAsk(d) + BestBid(d)) as real / 2.0
  }
}

=== FILE: wrappers.dfy ===
/** Optional values (a key that may be absent) and results that carry
    either a value or the Python exception the trading code raises. A
    Result supports `:-`, so a raised exception propagates out of the
    caller the way an uncaught Python exception does. */
module Wrappers {

  datatype Option<+T> = None | Some(value: T)

  datatype Result<+T, +E> = Ok(value: T) | Err(error: E) {

    predicate IsFailure() {
      Err?
    }

    function PropagateFailure<U>(): Result<U, E>
      requires Err?
    {
      Err(error)
    }

    function Extract(): T
      requires Ok?
    {
      value
    }
  }
}
